=== FILE: README.md ===
# Datpiff playback session — a Dafny model

This project models the sequential core of the Datpiff command-line player:

- the **media session** (`Media`): the per-session audio cache keyed by
  `artist-song`, the song setter and `_write_audio` (cache lookup, fetch on a
  miss, store), the track clamping and demo slicing of `play`, the index clamp
  of `setMedia`, and the next-track decision of autoplay;
- the **mixtape listing** (`Mixtapes`): the lists scraped from a listing page
  (cut to the artist count, `amp;` removed), choosing a mixtape by position or
  by case-insensitive name, and choosing the listing category with its `hot`
  fallback;
- the **VLC player** (`VlcPlayer`): the `playing`/`pause`/`stop`/`load` flags
  under play, pause, stop and VLC's reported state, seeking, the saturating
  volume arithmetic and the minutes/seconds clock;
- the **album URLs** (`Album`): the album link, the embedded-player URL, the
  per-track mp3 URLs and `Mp3.__len__`.

Everything is immutable data and pure functions; the only method is
`Album.Mp3Urls`, whose loop mirrors the source's `for` loop. Python's dynamic
arguments are a `PyValue` (`None`, an int or a str) with Python truthiness and
`str()` (module `Py`); the string built-ins the code relies on (`in`, `lower`,
`strip`, `isnumeric`/`int`, ordering, `re.sub('amp;', '', s)`) are in module
`Strings`.

Inputs the model takes as parameters instead of computing:

- the network: a fetch function from link to an optional response
  (`Media.Fetch`), and whether the search request of `_Start` succeeded;
- the outcome of each cache insertion (whether it raised `MemoryError`);
- the index lookups `Select.get_index` / `Select.get_index_of`, whose code is
  not part of this model (`Media.IndexOf`, answering a position, `None`, or an
  exception);
- the lists the regular expressions extract, and `Reparse`'s album ID, media
  ID and encoded track names;
- what VLC reports: its volume, its time and its state name.

In these places the code behaves in ways a reader might not expect; the model follows the code:

- an integer track beyond the album is clamped only by `Media.play` and
  `setMedia`; negative integers are not clamped, and `Mixtapes._select` does not
  clamp at all (an out-of-range integer is searched for as text);
- the cache assignment overwrites (the last write wins), and as written the
  cache is never read (see Findings);
- two pauses return to the previous state only from a player that was either
  playing or paused; from an idle player they leave it playing;
- `volumeUp` and `volumeDown` keep the volume in `[0, 100]` only when
  VLC's reported volume is in that range (VLC can report `-1`, from which
  `volumeUp` can end below 0); `volume(n)` always ends in range;
- setting `autoplay` starts a new background routine on every assignment;
  nothing prevents two from running.

`vlcplayer.py` contains an unresolved merge. The model follows the side on which
`VLCPlayer` derives from `BasePlayer`. `BasePlayer` (not part of this model) is
taken to supply the flag dictionary and
`set_all_state(value, **flags)`, which sets every flag to `value` except the
named ones. The flag names are taken to be `playing`, `pause`, `stop` and `load`.

## Model

| member | source | states |
|---|---|---|
| AudioCache.Key | pydatpiff/media.py:274-288 | the cache key is the artist, a hyphen, then the song; the same function builds the key on store and on lookup |
| AudioCache.KeyInjective | pydatpiff/media.py:274-288 | for one artist, two songs with the same key are the same song |
| AudioCache.CacheSong | pydatpiff/media.py:264-278 | after a store the key maps to the content, other keys keep their entries and no key is added besides it; on `MemoryError` the store is empty and the entry is dropped |
| AudioCache.Retrieve | pydatpiff/media.py:280-291 | a lookup returns the stored response exactly when the attribute guard holds and the key is present |
| AudioCache.RetrieveAsWritten | pydatpiff/media.py:289-291 | with the guard as written, every lookup returns `None` |
| AudioCache.RetrieveIntended | pydatpiff/media.py:289-291 | with the guard fixed, a lookup hits exactly when the key is stored and returns its entry |
| AudioCache.CacheRoundTrip | pydatpiff/media.py:274-291 | store then intended lookup returns what was stored |
| AudioCache.CacheOtherSongsUnchanged | pydatpiff/media.py:274-276 | storing one song does not change the lookup of any other song |
| AudioCache.CacheClearedOnMemoryError | pydatpiff/media.py:277-278 | after a store that ran out of memory every song misses, the triggering one included |
| AudioCache.CacheAsWrittenNeverHits | pydatpiff/media.py:274-291 | as written, a song just stored is in the dictionary and still not found |
| Media.MediaLen | pydatpiff/media.py:68-72 | the length is 0 until an album is loaded and the number of its songs afterwards |
| Media.SongCount | pydatpiff/media.py:68-72 | a session, which always holds a loaded album, has as many songs as the album |
| Media.MediaLenAgreesWithMp3Len | pydatpiff/media.py:68-72 | the session length and the album length agree on a non-empty album; on an empty one the album length is `None` and the session length 0 |
| Media.SetMedia | pydatpiff/media.py:117-129 | a resolved position above `total - 1` becomes `total - 1`; the URL is the base followed by the link at that position, and the artist and cover are the listing entries at that position; it fails exactly when one of the three lists has no entry there, and fails as unselected exactly when the selection did not resolve; a listing failure reports the URL and artist already assigned before the lookup that raised; with enough listing entries it succeeds |
| Media.SetMediaClampsToLast | pydatpiff/media.py:120-122 | a selection past the end of a non-empty listing loads the last mixtape |
| Media.SetSong | pydatpiff/media.py:251-262 | the song setter records the looked-up position when it is on the album, fails with `IndexError` when it is past the album, changes nothing when the lookup finds nothing, and fails when the lookup raises |
| Media.SetSongKeepsSelection | pydatpiff/media.py:251-262 | selecting a song keeps the selected song inside the album |
| Media.WriteAudioKeepsSelection | pydatpiff/media.py:293-318 | writing a track keeps the selected song inside the album, whether the write succeeds or fails |
| Media.PlayKeepsSelection | pydatpiff/media.py:376-413 | playing keeps the selected song inside the album |
| Media.WriteAudio | pydatpiff/media.py:293-318 | an unresolved track fails, and a position past the album fails after remembering the index; otherwise, once the song setter succeeds, a truthy cached response is returned without fetching, and on a miss the write succeeds exactly when the fetch returns a response, which is then returned and stored; a fetch failure is reported only when the fetch failed; a successful write leaves the session the song setter produced, with the same artist, changed only in its cache |
| Media.WriteAudioAsWrittenAlwaysFetches | pydatpiff/media.py:312-316 | with the guard as written, every successful write fetches from the network |
| Media.WriteAudioSecondCallHitsCache | pydatpiff/media.py:312-318 | with the guard fixed, a second write of the same track is served from the cache with the same bytes; as written it fetches again |
| Media.WriteAudioMemoryErrorStillReturnsContent | pydatpiff/media.py:313-318 | when caching runs out of memory the cache is empty, yet the fetched bytes are still returned |
| Media.RequestedTrack | pydatpiff/media.py:392-396 | an integer track above the song count becomes the song count and any other integer passes unchanged; a name becomes its 1-based position, or fails when its lookup fails |
| Media.DemoWindowFits | pydatpiff/media.py:410-413 | for every size, the demo start plus the demo length is at most the size |
| Media.DemoChunk | pydatpiff/media.py:404-413 | the full mode plays all content; the demo mode plays exactly `size/5` bytes starting at `size/5/5`, inside the content, so the clamped slice never has to clamp |
| Media.Play | pydatpiff/media.py:376-413 | a falsy track does nothing; no player is an error; a track whose lookup fails raises; otherwise the clamped track is written, and play starts exactly when the write succeeds, naming the song at the written index and cutting its chunk from the written content, while a failed write is swallowed |
| Media.PlayNeverRequestsPastLastTrack | pydatpiff/media.py:392-394 | an integer beyond the album plays the last track |
| Autoplay.Start | pydatpiff/media.py:347-357 | the loop starts only when autoplay is on, a song is selected and a next track exists; when the current song is last, autoplay turns itself off; with no song selected it only reports and returns, and a failed lookup of the current song ends the thread |
| Autoplay.Step | pydatpiff/media.py:359-372 | a pass waits until the player is stopped, then plays the track after the current one whenever it exists; past the last track it turns autoplay off and plays nothing; a failed lookup ends the loop |
| Autoplay.StateGet | pydatpiff/media.py:361 | reading the state dictionary finds exactly the four flags the VLC player sets, and `stop` holds the stop flag |
| Autoplay.StoppedAsWritten | pydatpiff/media.py:361 | the loop's test of the `stopped` key is never true |
| Autoplay.StoppedIntended | pydatpiff/media.py:361 | the intended test holds exactly when the stop flag is set |
| Autoplay.AutoplayAsWrittenNeverAdvances | pydatpiff/media.py:359-372 | as written, even right after `stop` the loop keeps polling and never plays another track |
| Autoplay.AutoplayAdvancesAfterStop | pydatpiff/media.py:359-372 | with the intended test, a stopped player moves on to the next track when there is one, and a playing one is waited for |
| Autoplay.Run | pydatpiff/media.py:359-372 | every track the repeated loop starts lies after the current song and on the album |
| Autoplay.RunPlaysRemainingTracks | pydatpiff/media.py:353-372 | autoplay plays the following tracks one at a time, in order, and none beyond the album |
| Autoplay.ThreeTrackScenario | pydatpiff/media.py:347-372 | on a three-track album from track 1, autoplay plays track 2, then track 3, then turns itself off |
| Autoplay.NextTrackNotClamped | pydatpiff/media.py:363-372 | the track autoplay asks `play` for passes the clamp unchanged |
| Mixtapes.SearchTree | src/mixtapes.py:122-135 | each parsed item has its `amp;` runs removed; once the artist count is known the list is its first `count` items in order |
| Mixtapes.ParsePage | src/mixtapes.py:83-88 | each list holds its matches with `amp;` removed, in order; artists are kept whole, and titles, links and views are cut to the artist count |
| Mixtapes.SearchTreeUnescapes | src/mixtapes.py:127-129 | a scraped `&amp;` comes out as `&` |
| Strings.RemoveAmp | src/mixtapes.py:127 | removing `amp;` never lengthens a string and leaves one without `amp;` unchanged |
| Strings.RemoveAmpLeftmost | src/mixtapes.py:127 | the leftmost `amp;` is deleted, the text before it kept, and the pass resumes right after it, as one `re.sub` pass does |
| Strings.RemoveAmpShortens | src/mixtapes.py:127 | a string containing `amp;` loses at least one run of it |
| Strings.RemoveAmpUnescapes | src/mixtapes.py:127 | removing `amp;` undoes HTML escaping of ampersands in text without `amp;` |
| Strings.Strip | src/mixtapes.py:216 | the stripped text is an infix of the input, everything cut off on either side is white space, and it neither starts nor ends with white space |
| Mixtapes.FirstMatch | src/mixtapes.py:216-221 | the result is the lowest matching position, or `None` exactly when no entry matches |
| Mixtapes.Select | src/mixtapes.py:199-222 | an integer in `[1, len(artists)]` selects the link at `select - 1`; otherwise the lowest entry whose lower-cased artist or title contains the stripped, lower-cased query decides: its link is returned, or `IndexError` when the link list is too short; no match gives `None` |
| Mixtapes.SelectText | src/mixtapes.py:216-222 | the lowest matching entry decides: its link is returned with its position, or `IndexError` when the link list is too short; `None` exactly when nothing matches |
| Mixtapes.SelectZeroIsOne | src/mixtapes.py:205-213 | selection 0 selects what selection 1 selects |
| Mixtapes.SelectOutOfRangeIsText | src/mixtapes.py:209-216 | an integer outside `[0, len(artists)]` is not clamped; it selects what its decimal string selects |
| Mixtapes.SelectEmptyQueryPicksFirst | src/mixtapes.py:216-222 | an empty or blank query selects the first entry |
| Mixtapes.SelectIgnoresCase | src/mixtapes.py:216-219 | a query and its lower-cased form select the same entry |
| Mixtapes.MinContaining | src/mixtapes.py:95-97 | the result is a name containing the query, or `None` exactly when no name contains it |
| Mixtapes.MinContainingIsLeast | src/mixtapes.py:95-97 | no name containing the query orders before the result |
| Mixtapes.ParseCategory | src/mixtapes.py:90-97 | the chosen category contains `str(index)`; `None` exactly when no category contains it |
| Mixtapes.ParseCategoryPicksLeast | src/mixtapes.py:95-97 | the chosen category is the least name containing `str(index)` |
| Mixtapes.Get | src/mixtapes.py:72-74 | a lookup by name finds that category's URL, or `None` exactly when no category has that name |
| Mixtapes.CategoryUrl | src/mixtapes.py:71-74 | when no name contains `str(category)` the `hot` URL is requested; otherwise the URL is either the `hot` one or the non-empty URL of a category whose name contains it |
| Mixtapes.CategoryUrlOfLeast | src/mixtapes.py:71-74 | the least name containing `str(category)` decides: its URL is requested, or the `hot` one when that URL is empty |
| Mixtapes.Start | src/mixtapes.py:58-78 | the search page is loaded exactly when the search term is truthy, not blank after stripping, and the request succeeded; otherwise the `hot` category; without a search term the requested category |
| Mixtapes.StartUnknownCategoryLoadsDefault | src/mixtapes.py:63-76 | without a search term, any category that no name contains (such as `None`) loads the `hot` URL |
| VlcPlayer.StateOf | pydatpiff/backend/audio/vlcplayer.py:31-46 | `NothingSpecial` clears every flag; a state name mentioning "pause" sets paused and clears playing; any other sets playing and clears paused; `stop` and `load` are kept |
| VlcPlayer.Pause | pydatpiff/backend/audio/vlcplayer.py:141-148 | the pause flag toggles and exactly one of playing and paused is set afterwards; nothing else changes; VLC's pause is called once |
| VlcPlayer.PauseTwiceRestores | pydatpiff/backend/audio/vlcplayer.py:145-148 | two pauses restore the pause flag and, from a player that was either playing or paused, the whole player |
| VlcPlayer.PauseTwiceFromIdlePlays | pydatpiff/backend/audio/vlcplayer.py:145-148 | from an idle player, two pauses leave it playing |
| VlcPlayer.Play | pydatpiff/backend/audio/vlcplayer.py:127-138 | afterwards only `playing` and `load` are set; a paused player is resumed by a pause toggle, any other is started and marked as having a track set; nothing else about the player changes |
| VlcPlayer.Stop | pydatpiff/backend/audio/vlcplayer.py:177-180 | afterwards only `stop` is set; VLC is stopped; nothing else changes |
| VlcPlayer.PlayThenStop | pydatpiff/backend/audio/vlcplayer.py:127-180 | play followed by stop leaves the player stopped, neither playing nor paused |
| VlcPlayer.TransitionsKeepConsistent | pydatpiff/backend/audio/vlcplayer.py:31-180 | no transition leaves the player both playing and paused |
| VlcPlayer.SetTrack | pydatpiff/backend/audio/vlcplayer.py:48-55 | a truthy file name is loaded and recorded with one `set_mrl` call, and nothing else about the player changes; without one the call fails (the source calls an undefined `Print`) |
| VlcPlayer.SetTrackIntended | pydatpiff/backend/audio/vlcplayer.py:48-55 | with the message fixed, a call without a file name changes nothing |
| VlcPlayer.SetTrackWithoutFileRaises | pydatpiff/backend/audio/vlcplayer.py:54-55 | as written a missing or empty file name raises; as intended it is a no-op |
| VlcPlayer.SetTrackThenPlay | pydatpiff/backend/audio/vlcplayer.py:48-53 | a track given a file name and then played (`play`, lines 127-138) is playing and loaded with that file and song, after exactly a `set_mrl` and a `play` call |
| VlcPlayer.Seek | pydatpiff/backend/audio/vlcplayer.py:150-157 | stopped: no change and no call; otherwise the time moves by `-pos*1000` (rewind) or `+pos*1000` with no clamping |
| VlcPlayer.Rewind | pydatpiff/backend/audio/vlcplayer.py:161-167 | unless stopped, the time moves back by `pos` seconds through one `set_time` call and nothing else changes; when stopped nothing happens |
| VlcPlayer.FastForward | pydatpiff/backend/audio/vlcplayer.py:170-175 | unless stopped, the time moves on by `pos` seconds through one `set_time` call and nothing else changes; when stopped nothing happens |
| VlcPlayer.RewindUndoesFastForward | pydatpiff/backend/audio/vlcplayer.py:150-175 | fast-forward then rewind by the same amount restores the player |
| VlcPlayer.Adjust | pydatpiff/backend/audio/vlcplayer.py:64-81 | up is the least of `current + vol` and 100, down the greatest of `current - vol` and 0, exact the least of `vol` and 100 |
| VlcPlayer.NewVolume | pydatpiff/backend/audio/vlcplayer.py:58-85 | negative numbers and non-digit strings are ignored; `None` is passed to VLC unchecked; a digit string acts as its number |
| VlcPlayer.VolumeStaysInRange | pydatpiff/backend/audio/vlcplayer.py:64-81 | from a volume in `[0, 100]` every applied request stays in `[0, 100]` |
| VlcPlayer.VolumeMonotone | pydatpiff/backend/audio/vlcplayer.py:69-78 | up never lowers the volume and down never raises it |
| VlcPlayer.VolumeTextAsNumber | pydatpiff/backend/audio/vlcplayer.py:60-64 | the string of a number's digits has the same effect as the number |
| VlcPlayer.SetVolumeStep | pydatpiff/backend/audio/vlcplayer.py:58-85 | an ignored request makes no call; an applied one sets VLC's volume to the computed level; flags are untouched |
| VlcPlayer.VolumeUp | pydatpiff/backend/audio/vlcplayer.py:94-96 | an accepted amount sets the volume, through one VLC call, to the sum capped at 100; a rejected one changes nothing; from a volume in range the result lies between the old volume and 100 |
| VlcPlayer.VolumeDown | pydatpiff/backend/audio/vlcplayer.py:99-101 | an accepted amount sets the volume, through one VLC call, to the difference floored at 0; a rejected one changes nothing; from a volume in range the result lies between 0 and the old volume |
| VlcPlayer.Volume | pydatpiff/backend/audio/vlcplayer.py:104-108 | `None` does nothing; an accepted amount becomes the volume, capped at 100, through one VLC call; a rejected one changes nothing |
| VlcPlayer.VolumeUpSaturates | pydatpiff/backend/audio/vlcplayer.py:74-78 | at 95, turning up by 10 gives 100 |
| VlcPlayer.FormatTime | pydatpiff/backend/audio/vlcplayer.py:120-124 | seconds are in `[0, 60)`; for a non-negative time the minutes and seconds bracket it to within one second |
| VlcPlayer.FormatTimeOfMinusOne | pydatpiff/backend/audio/vlcplayer.py:120-124 | a time of -1 ms formats as 0 minutes 59 seconds |
| Album.AlbumLink | src/album.py:9-10 | the album link is the album base followed by the given link |
| Album.AlbumLinkRoundTrip | src/album.py:9-10 | the page link reads back out of the album URL, so different links give different album URLs |
| Album.EmbedUrl | src/album.py:19-27 | the embed URL is the embed prefix, the decimal album ID, then `?trackid=1&platform=desktop` |
| Album.EmbedIdRoundTrip | src/album.py:23-26 | the album ID reads back out of the embed URL unchanged |
| Album.Mp3Url | src/album.py:96-99 | each mp3 URL starts with the mp3 prefix followed by the media ID |
| Album.Mp3UrlRoundTrip | src/album.py:96-99 | the track reads back out of its mp3 URL unchanged |
| Album.Mp3Urls | src/album.py:93-103 | one URL per track, in track order; no tracks is an error, not an empty list |
| Album.Mp3UrlsRecoverTracks | src/album.py:93-99 | the URL list determines the track list, position by position |
| Album.Mp3Len | src/album.py:46-48 | the song count when there are songs, `None` otherwise |

## Findings

| source | as written | input that shows it | evidently intended | confidence | as-written member | corrected member |
|---|---|---|---|---|---|---|
| pydatpiff/media.py:289 | `hasattr(self, "__cache_storage")` tests the unmangled name while the constructor assigned the mangled one, so the lookup always misses and `_write_audio` refetches every time | cache song `s` of artist `A`, then look `s` up: `None` | the stored response is returned and no second fetch happens | high; not executed | AudioCache.RetrieveAsWritten, AudioCache.CacheAsWrittenNeverHits | AudioCache.RetrieveIntended, AudioCache.CacheRoundTrip |
| pydatpiff/media.py:312-316 | every `_write_audio` fetches even for a song it cached before | write the same track twice: both fetch | the second write is served from the cache | high; not executed | Media.WriteAudioAsWrittenAlwaysFetches | Media.WriteAudioSecondCallHitsCache |
| pydatpiff/media.py:361 | the loop reads `player._state.get("stopped")`, but the VLC player's flags are `playing`, `pause`, `stop` and `load`, so the lookup gives `None` and the loop never advances | autoplay on track 1 of 3, then `stop`: the loop keeps polling | the loop sees the stop flag and plays track 2 | low (the state dictionary's keys come from `BasePlayer`, which is not part of this model); not executed | Autoplay.StoppedAsWritten, Autoplay.AutoplayAsWrittenNeverAdvances | Autoplay.StoppedIntended, Autoplay.AutoplayAdvancesAfterStop |
| pydatpiff/backend/audio/vlcplayer.py:55 | `setTrack` without a file name calls `Print`, which is undefined, so it raises `NameError` | `setTrack("x", None)` | a message is shown and nothing changes | high; not executed | VlcPlayer.SetTrack, VlcPlayer.SetTrackWithoutFileRaises | VlcPlayer.SetTrackIntended |

The cache lookup takes the guard's outcome as a parameter (`readable`).
`AudioCache.GuardAsWritten` is the as-written value. The intended lookup
(`AudioCache.RetrieveIntended`) passes `true`.

## Left out

- Network: `Session.method`, the body of `Mixtapes.search` (its blank-term check is kept in `Mixtapes.Start`), `Album.embed_response` and the fetch in `_write_audio` are parameters, because they are I/O.
- File system: `Tmp`, `File.write_to_file`, `download`, `download_album` and `os.mkdir` are not modelled, because they are I/O. `download` reuses `_write_audio`, which is modelled.
- Display: `Verbose`, `screen`, `print`, `get_human_readable_file_size`, `Mixtapes.display`, `Mixtapes.category`, `show_songs`, `__str__` and `__repr__` are not modelled, because they only write text.
- Threading: `threader_wrapper`, the polling loop and its busy-wait in `_continous_play`, and `ThreadQueue` in `find_song` and `download_album` are left out, because they are concurrency. Only the decision of one loop pass is modelled (`Autoplay.Step`).
- Regular expressions and HTML: the patterns of `_setup`, `re.finditer`, `Reparse` (album ID, media ID, songs, encoded tracks, durations) and `Mp3.content` are left out, because they are text scraping. Their results are inputs.
- `_stateof`: the regular expression that extracts VLC's state name is not modelled; the name is an input.
- VLC: `audio_get_volume`, `audio_set_volume`, `get_time`, `set_time`, `set_mrl`, `play`, `pause` and `stop` are reduced to reported values plus a log of calls. VLC's own clamping of times and volumes is not modelled, and neither is the player's construction failing in `__init__`.
- Code not shown: `Select.get_index`, `Select.get_index_of`, `Player.getPlayer` and `BasePlayer.set_all_state` are not modelled. The lookups are a parameter, taken to return a non-negative position, `None`, or an exception. `set_all_state` is taken as described above.
- Media.Play: the hand-off to the generic player (`set_track`, `play`) after the chunk is written is not modelled, because that player comes from `Player.getPlayer`. The VLC player's own `play` is `VlcPlayer.Play`.
- Media.SetMedia: a failed call returns the URL and artist it had already assigned instead of a whole session, so the pairing of that new artist (the cache key) with the previous album's songs is left to the caller. The `Album` and `Mp3` objects and the uploader/bio attributes it creates are not modelled, because building them is network work.
- Media construction: `__init__`, `__setup`, `__is_valid_mixtape`, `find_song` and the plain attribute getters and setters are left out, because they are set-up and lookups outside the core.
- Floats: `int(size / 5)`, `int(pos / 60000)` and `int(x / 1000)` are modelled as exact integer division truncating toward zero. Python's float quotient agrees only while values are below 2^53.
- Strings.Lower: lower-cases ASCII letters only, while Python's `lower()` covers all of Unicode.
- Strings.IsDigits: accepts ASCII digits only, while Python's `isnumeric()` also accepts other Unicode numerals.
- VlcPlayer.NewVolume: models only the three modes `up`, `down` and `exact`. A float argument, which bypasses the checks and goes straight to VLC, is not modelled.
- Album.Mp3Len: returns `None` like the source. Python's `len()` would then raise `TypeError`, and that is not modelled.
- Autoplay.Step: `stopped` is a parameter. The finding above links it to the VLC flags, but that link assumes the state dictionary holds exactly those four flags.
- Autoplay.Run: assumes the intended reading of the stop flag. It also assumes that each track autoplay starts is found again by the index lookup at position `n - 1`, and that it plays until the player reports a stop. Neither the index lookup nor the playback timing is modelled.
- The two test files are not modelled, because they exercise code not shown here (`validate_search`, `DOMProcessor`).

=== FILE: album.dfy ===
/**
 * URL construction of `Album` and `Mp3` (src/album.py). The album ID, the media
 * ID and the encoded track names come from `Reparse`, which is not part of this
 * model: they are inputs.
 */
module Album {
  import opened Wrappers
  import opened Py

  /** The fixed front of every embedded-player URL. */
  const EmbedPrefix: string := "https://embeds.datpiff.com/mixtape/"

  /** The fixed query every embedded-player URL ends with. */
  const EmbedQuery: string := "?trackid=1&platform=desktop"

  /** The fixed front of every mp3 URL. */
  const Mp3Prefix: string := "https://hw-mp3.datpiff.com/mixtapes/"

  /** `Album(link).link`: the album base URL followed by the page link. */
  function AlbumLink(albumBase: string, link: string): (r: string)
    ensures |r| == |albumBase| + |link|
    ensures r[..|albumBase|] == albumBase && r[|albumBase|..] == link
  {
    albumBase + link
  }

  /** The page link read back out of an album URL built on a known base. */
  function LinkOf(url: string, albumBase: string): string
    requires |url| >= |albumBase|
  {
    url[|albumBase|..]
  }

  /**
   * On one base, the album URL names its page: the link reads back unchanged,
   * so different links give different album URLs.
   */
  lemma AlbumLinkRoundTrip(albumBase: string, link: string, other: string)
    ensures LinkOf(AlbumLink(albumBase, link), albumBase) == link
    ensures AlbumLink(albumBase, link) == AlbumLink(albumBase, other) ==> link == other
  {
    if AlbumLink(albumBase, link) == AlbumLink(albumBase, other) {
      assert LinkOf(AlbumLink(albumBase, other), albumBase) == other;
    }
  }

  /** `embed_url`: the embed prefix, `str(ID)`, then the fixed query. */
  function EmbedUrl(id: PyValue): (r: string)
    ensures |r| == |EmbedPrefix| + |Str(id)| + |EmbedQuery|
    ensures r[..|EmbedPrefix|] == EmbedPrefix
    ensures r[|EmbedPrefix|..|EmbedPrefix| + |Str(id)|] == Str(id)
    ensures r[|r| - |EmbedQuery|..] == EmbedQuery
  {
    EmbedPrefix + Str(id) + EmbedQuery
  }

  /** The album ID read back out of an embed URL. */
  function EmbedId(url: string): string
    requires |url| >= |EmbedPrefix| + |EmbedQuery|
  {
    url[|EmbedPrefix|..|url| - |EmbedQuery|]
  }

  /** The embed URL names its album: the ID reads back unchanged. */
  lemma EmbedIdRoundTrip(id: PyValue)
    ensures EmbedId(EmbedUrl(id)) == Str(id)
  {
  }

  /** One entry of `mp3Urls`: the mp3 prefix, `str(media_id)`, then the encoded track. */
  function Mp3Url(mediaId: PyValue, track: string): (r: string)
    ensures |r| == |Mp3Prefix| + |Str(mediaId)| + |track|
    ensures r[..|Mp3Prefix|] == Mp3Prefix
    ensures r[|Mp3Prefix|..|Mp3Prefix| + |Str(mediaId)|] == Str(mediaId)
  {
    Mp3Prefix + (Str(mediaId) + track)
  }

  /** The encoded track read back out of an mp3 URL of a known media ID. */
  function TrackOf(url: string, mediaId: PyValue): string
    requires |url| >= |Mp3Prefix| + |Str(mediaId)|
  {
    url[|Mp3Prefix| + |Str(mediaId)|..]
  }

  /** Each mp3 URL determines its track: the track reads back unchanged. */
  lemma Mp3UrlRoundTrip(mediaId: PyValue, track: string)
    ensures TrackOf(Mp3Url(mediaId, track), mediaId) == track
  {
    assert Mp3Url(mediaId, track) == (Mp3Prefix + Str(mediaId)) + track;
  }

  /** `mp3Urls` raises (an undefined `Mp3Error`) when there are no tracks. */
  datatype Mp3Error = NoTracks

  /**
   * `mp3Urls`: one URL per encoded track, in track order; an empty track list
   * is an error rather than an empty result.
   */
  method Mp3Urls(mediaId: PyValue, tracks: seq<string>) returns (r: Result<seq<string>, Mp3Error>)
    ensures r.Failure? <==> |tracks| == 0
    ensures r.Success? ==> |r.value| == |tracks|
    ensures r.Success? ==> forall i :: 0 <= i < |tracks| ==> r.value[i] == Mp3Url(mediaId, tracks[i])
  {
    var mp3: seq<string> := [];
    var k := 0;
    while k < |tracks|
      invariant 0 <= k <= |tracks|
      invariant |mp3| == k
      invariant forall i :: 0 <= i < k ==> mp3[i] == Mp3Url(mediaId, tracks[i])
    {
      mp3 := mp3 + [Mp3Url(mediaId, tracks[k])];
      k := k + 1;
    }
    if |mp3| == 0 {
      return Failure(NoTracks);
    }
    return Success(mp3);
  }

  /** Distinct track lists give distinct URL lists: the URLs recover the tracks in order. */
  lemma Mp3UrlsRecoverTracks(mediaId: PyValue, tracks: seq<string>, urls: seq<string>)
    requires |urls| == |tracks|
    requires forall i :: 0 <= i < |tracks| ==> urls[i] == Mp3Url(mediaId, tracks[i])
    ensures forall i :: 0 <= i < |urls| ==> |urls[i]| >= |Mp3Prefix| + |Str(mediaId)|
    ensures forall i :: 0 <= i < |urls| ==> TrackOf(urls[i], mediaId) == tracks[i]
  {
    forall i | 0 <= i < |urls|
      ensures TrackOf(urls[i], mediaId) == tracks[i]
    {
      Mp3UrlRoundTrip(mediaId, tracks[i]);
    }
  }

  /** `Mp3.__len__`: the number of songs when there are any, `None` otherwise. */
  function Mp3Len(songs: seq<string>): (r: Option<nat>)
    ensures r.None? <==> |songs| == 0
    ensures r.Some? ==> r.value == |songs| && r.value > 0
  {
    if |songs| > 0 then Some(|songs|) else None
  }
}

=== FILE: audio_cache.dfy ===
/**
 * The per-session audio cache of `Media` (pydatpiff/media.py): a dictionary
 * from "artist-song" to the HTTP response that carried the song's audio.
 */
module AudioCache {
  import opened Wrappers

  /** An HTTP response as far as the cache cares: whether it is truthy (`ok`) and its body. */
  datatype Response = Response(ok: bool, content: Bytes)

  /** The cache dictionary. */
  type Store = map<string, Response>

  /** The dictionary key for a song of the session's artist: the artist, a hyphen, the song. */
  function Key(artist: string, song: string): (k: string)
    ensures |k| == |artist| + 1 + |song|
    ensures k[..|artist|] == artist && k[|artist|] == '-' && k[|artist| + 1..] == song
  {
    artist + "-" + song
  }

  /** For one artist, different songs never share a key. */
  lemma KeyInjective(artist: string, song1: string, song2: string)
    requires Key(artist, song1) == Key(artist, song2)
    ensures song1 == song2
  {
    assert song1 == Key(artist, song1)[|artist| + 1..];
  }

  /**
   * `_cache_song`: store `content` under the song's key. When the insertion
   * runs out of memory the whole dictionary is replaced by an empty one and
   * the triggering entry is dropped.
   */
  function CacheSong(store: Store, artist: string, song: string, content: Response,
                     outOfMemory: bool): (r: Store)
    ensures outOfMemory ==> r == map[]
    ensures !outOfMemory ==> r.Keys == store.Keys + {Key(artist, song)}
    ensures !outOfMemory ==> r[Key(artist, song)] == content
    ensures !outOfMemory ==>
      forall k :: k in store && k != Key(artist, song) ==> r[k] == store[k]
  {
    if outOfMemory then map[] else store[Key(artist, song) := content]
  }

  /**
   * `_retrieve_song_from_cache`. `readable` is the outcome of the attribute
   * test guarding the lookup; the stored entry is returned only when it holds
   * and the key is present.
   */
  function Retrieve(store: Store, artist: string, song: string, readable: bool): (r: Option<Response>)
    ensures r.Some? <==> readable && Key(artist, song) in store
    ensures r.Some? ==> r.value == store[Key(artist, song)]
  {
    var key := Key(artist, song);
    if readable && key in store then Some(store[key]) else None
  }

  /**
   * The guard as written asks for an attribute literally named `__cache_storage`,
   * while the assignment in the constructor stores a name-mangled attribute,
   * so the test never succeeds.
   */
  const GuardAsWritten: bool := false

  /** The lookup exactly as written: whatever the store holds, it misses. */
  function RetrieveAsWritten(store: Store, artist: string, song: string): (r: Option<Response>)
    ensures r == None
  {
    Retrieve(store, artist, song, GuardAsWritten)
  }

  /** The lookup as evidently intended: the guard tests the attribute that was assigned. */
  function RetrieveIntended(store: Store, artist: string, song: string): (r: Option<Response>)
    ensures r.Some? <==> Key(artist, song) in store
    ensures r.Some? ==> r.value == store[Key(artist, song)]
  {
    Retrieve(store, artist, song, true)
  }

  /** Intended round trip: a stored song reads back as the content stored, the last write winning. */
  lemma CacheRoundTrip(store: Store, artist: string, song: string, content: Response)
    ensures RetrieveIntended(CacheSong(store, artist, song, content, false), artist, song) == Some(content)
  {
  }

  /** Storing one song leaves the lookup of every other song of the artist unchanged. */
  lemma CacheOtherSongsUnchanged(store: Store, artist: string, song: string, other: string,
                                 content: Response)
    requires other != song
    ensures RetrieveIntended(CacheSong(store, artist, song, content, false), artist, other)
         == RetrieveIntended(store, artist, other)
  {
    if Key(artist, other) == Key(artist, song) {
      KeyInjective(artist, other, song);
    }
  }

  /** After a memory failure every song, including the one being stored, misses. */
  lemma CacheClearedOnMemoryError(store: Store, artist: string, song: string, content: Response,
                                  any: string)
    ensures RetrieveIntended(CacheSong(store, artist, song, content, true), artist, any) == None
  {
  }

  /** As written, even a song stored a moment ago is not found. */
  lemma CacheAsWrittenNeverHits(store: Store, artist: string, song: string, content: Response)
    ensures RetrieveAsWritten(CacheSong(store, artist, song, content, false), artist, song) == None
    ensures Key(artist, song) in CacheSong(store, artist, song, content, false)
  {
  }
}

=== FILE: autoplay.dfy ===
/**
 * The next-track decision of `Media._continous_play` (pydatpiff/media.py),
 * separated from the background thread that polls the player. Song positions
 * are 0-based indices into the album; track numbers are 1-based.
 */
module Autoplay {
  import opened Media
  import opened Wrappers
  import Py
  import VlcPlayer

  /** How the autoplay routine begins. */
  datatype Begin =
    | Off          // autoplay is disabled: the routine returns at once
    | NoSong       // no song has been played yet: reported, returns
    | LastTrack    // the current song is the last one: autoplay switches itself off
    | Crashed      // looking the current song up failed: the thread ends with the error
    | Polling      // the polling loop starts

  /**
   * The checks before the loop: autoplay must be on, a song must be selected,
   * its lookup must succeed and a following track must exist.
   */
  function Start(enabled: bool, songSelected: bool, position: Lookup, total: nat): (b: Begin)
    ensures b.Polling? <==> enabled && songSelected && position.At? && position.index + 2 <= total
    ensures b.LastTrack? <==> enabled && songSelected && position.At? && position.index + 2 > total
    ensures !enabled <==> b.Off?
    ensures b.NoSong? <==> enabled && !songSelected
  {
    if !enabled then Off
    else if !songSelected then NoSong
    else match position
      case At(i) => if i + 2 > total then LastTrack else Polling
      case _ => Crashed
  }

  /** One pass of the polling loop. */
  datatype Tick =
    | Exit                 // autoplay was switched off: the loop ends
    | Fail                 // looking the current song up failed: the thread ends with the error
    | Wait                 // the player has not stopped: poll again
    | Finish               // the album is exhausted: autoplay switches itself off
    | PlayNext(track: nat) // play this 1-based track number

  /**
   * One loop pass: while autoplay is on and the player reports `stopped`, the
   * next track is the one after the current song, unless that lies beyond the
   * album, in which case autoplay turns itself off and nothing is played.
   */
  function Step(enabled: bool, position: Lookup, total: nat, stopped: bool): (t: Tick)
    ensures t.PlayNext? ==> enabled && stopped && position.At?
                            && t.track == position.index + 2 && 2 <= t.track <= total
    ensures t.Finish? <==> enabled && position.At? && stopped && position.index + 2 > total
    ensures t.Wait? <==> enabled && position.At? && !stopped
    ensures t.Exit? <==> !enabled
    ensures t.Fail? <==> enabled && !position.At?
    ensures enabled && position.At? && stopped && position.index + 2 <= total ==>
              t == PlayNext(position.index + 2)
  {
    if !enabled then Exit
    else match position
      case At(i) =>
        if !stopped then Wait
        else if i + 2 > total then Finish
        else PlayNext(i + 2)
      case _ => Fail
  }

  // ---------------------------------------------------------------------------
  // Reading the player's `stopped` flag
  // ---------------------------------------------------------------------------

  /**
   * `player._state.get(key)`, taking the state dictionary to hold exactly the
   * flags the VLC player sets: `playing`, `pause`, `stop` and `load`.
   */
  function StateGet(flags: VlcPlayer.Flags, key: string): (r: Option<bool>)
    ensures r.Some? <==> key == "playing" || key == "pause" || key == "stop" || key == "load"
    ensures key == "stop" ==> r == Some(flags.stop)
  {
    if key == "playing" then Some(flags.playing)
    else if key == "pause" then Some(flags.pause)
    else if key == "stop" then Some(flags.stop)
    else if key == "load" then Some(flags.load)
    else None
  }

  /** The loop's test as written: it asks for a key named `stopped`. */
  function StoppedAsWritten(flags: VlcPlayer.Flags): (stopped: bool)
    ensures !stopped
  {
    StateGet(flags, "stopped") == Some(true)
  }

  /** The test as evidently intended: the flag `stop` sets. */
  function StoppedIntended(flags: VlcPlayer.Flags): (stopped: bool)
    ensures stopped <==> flags.stop
  {
    StateGet(flags, "stop") == Some(true)
  }

  /**
   * As written, the loop never sees the player stop: even right after `stop`
   * it keeps polling, so no following track is ever played.
   */
  lemma AutoplayAsWrittenNeverAdvances(p: VlcPlayer.Player, position: Lookup, total: nat)
    ensures !Step(true, position, total, StoppedAsWritten(VlcPlayer.Stop(p).player.flags)).PlayNext?
    ensures position.At? ==>
              Step(true, position, total, StoppedAsWritten(VlcPlayer.Stop(p).player.flags)) == Wait
  {
  }

  /** With the intended test, a stopped player moves on to the next track when there is one. */
  lemma AutoplayAdvancesAfterStop(p: VlcPlayer.Player, i: nat, total: nat)
    requires i + 2 <= total
    ensures Step(true, At(i), total, StoppedIntended(VlcPlayer.Stop(p).player.flags)) == PlayNext(i + 2)
    ensures Step(true, At(i), total, StoppedIntended(VlcPlayer.Play(p).player.flags)) == Wait
  {
  }

  /**
   * The tracks autoplay starts from the song at `current` onwards, assuming
   * each track it starts plays until the player reports `stopped` and that
   * playing track `n` selects the song at position `n - 1`.
   */
  function Run(current: nat, total: nat): (r: seq<nat>)
    ensures forall k :: 0 <= k < |r| ==> current + 2 <= r[k] <= total
    decreases total - current
  {
    match Step(true, At(current), total, true)
    case PlayNext(n) => [n] + Run(n - 1, total)
    case _ => []
  }

  /**
   * Autoplay plays exactly the tracks after the current one, in order, one at
   * a time, and never a track number beyond the album.
   */
  lemma {:induction false} RunPlaysRemainingTracks(current: nat, total: nat)
    ensures |Run(current, total)| == if current + 1 < total then total - current - 1 else 0
    ensures forall k :: 0 <= k < |Run(current, total)| ==> Run(current, total)[k] == current + 2 + k
    ensures forall k :: 0 <= k < |Run(current, total)| ==> Run(current, total)[k] <= total
    decreases total - current
  {
    if current + 2 <= total {
      RunPlaysRemainingTracks(current + 1, total);
      assert Run(current, total) == [current + 2] + Run(current + 1, total);
    }
  }

  /**
   * A three-track album with the first song playing: autoplay starts track 2,
   * then track 3, and on track 3's stop switches itself off.
   */
  lemma ThreeTrackScenario()
    ensures Start(true, true, At(0), 3) == Polling
    ensures Step(true, At(0), 3, true) == PlayNext(2)
    ensures Step(true, At(1), 3, true) == PlayNext(3)
    ensures Step(true, At(2), 3, true) == Finish
    ensures Run(0, 3) == [2, 3]
  {
    RunPlaysRemainingTracks(0, 3);
  }

  /** The track autoplay asks `play` for is never clamped: it is already on the album. */
  lemma NextTrackNotClamped(s: Session, position: Lookup, indexOf: IndexOf)
    requires Step(true, position, SongCount(s), true).PlayNext?
    ensures var n := Step(true, position, SongCount(s), true).track;
            RequestedTrack(Py.PyInt(n), SongCount(s), indexOf) == Some(n as int)
  {
  }
}

=== FILE: media.dfy ===
/**
 * The session logic of `Media` (pydatpiff/media.py): choosing an album from the
 * mixtape listing, fetching a track's audio through the cache, and the track
 * clamping and demo slicing of `play`.
 *
 * The index lookup that `Media` delegates to `Select.get_index` and
 * `Select.get_index_of` is not part of this model; it is a parameter
 * (`IndexOf`). The network fetch is a parameter too (`Fetch`), and so is the
 * outcome of each dictionary insertion (whether it raised `MemoryError`).
 */
module Media {
  import opened Wrappers
  import opened Py
  import opened AudioCache
  import Album

  /** What an index lookup did: found a 0-based position, returned `None`, or raised. */
  datatype Lookup = At(index: nat) | Missing | Raises

  /** `Select.get_index` / `Select.get_index_of` over the album's songs. */
  type IndexOf = PyValue -> Lookup

  /** `Session.method("GET", link)`: the response, or `None` when the request raised. */
  type Fetch = string -> Option<Response>

  /**
   * The state of one `Media` object that the modelled operations read and write.
   * `current` is `_current_index`; the selected song is `songs[current]`.
   * `songIndex` is the private `__song_index` that `play` reads back.
   */
  datatype Session = Session(
    artist: string,
    songs: seq<string>,
    mp3Urls: seq<string>,
    cache: Store,
    songIndex: Option<nat>,
    current: Option<nat>)

  /**
   * `len(media)`: 0 until an album is loaded (reading `songs` then fails, so
   * `hasattr` is false), and the number of the album's songs afterwards.
   */
  function MediaLen(loaded: Option<seq<string>>): (n: nat)
    ensures loaded.None? ==> n == 0
    ensures loaded.Some? ==> n == |loaded.value|
  {
    match loaded
    case None => 0
    case Some(songs) => |songs|
  }

  /** `len(media)` of a session, which always has an album loaded. */
  function SongCount(s: Session): (n: nat)
    ensures n == MediaLen(Some(s.songs))
  {
    |s.songs|
  }

  /**
   * `len(media)` and `len(media._Mp3)` agree on a non-empty album; on an empty
   * one the album's length is `None` while the session's is 0.
   */
  lemma MediaLenAgreesWithMp3Len(songs: seq<string>)
    ensures Album.Mp3Len(songs).Some? ==> Album.Mp3Len(songs).value == MediaLen(Some(songs))
    ensures Album.Mp3Len(songs).None? <==> MediaLen(Some(songs)) == 0
  {
  }

  /** The selected song, if any, is a song of the album. */
  predicate SelectionInAlbum(s: Session) {
    s.current.None? || s.current.value < |s.songs|
  }

  // ---------------------------------------------------------------------------
  // setMedia
  // ---------------------------------------------------------------------------

  /** The mixtape listing `setMedia` indexes into. */
  datatype Listing = Listing(artists: seq<string>, links: seq<string>, covers: seq<string>)

  /** The album `setMedia` loads: its position, page URL, artist and cover. */
  datatype Target = Target(index: int, url: string, artist: string, cover: string)

  datatype SetMediaError =
    | NotSelected      // the selection lookup gave `None` or raised
    | OutOfListing(url: Option<string>, artist: Option<string>)
      // a listing index raised `IndexError`; `url` and `artist` are what
      // `self.url` and `self.artist` had already been set to (None: untouched)

  /**
   * `setMedia`: resolve the selection, clamp a position beyond the last mixtape
   * (`total - 1`) down to it, then read the link, artist and cover at that
   * position with Python's indexing (an empty listing clamps to `-1`). The
   * attributes are assigned one by one, so a lookup that raises leaves the
   * earlier assignments in place: a new URL, and perhaps a new artist (the
   * cache key), next to the previous album.
   */
  function SetMedia(listing: Listing, total: nat, resolved: Lookup, base: string)
    : (r: Result<Target, SetMediaError>)
    ensures !resolved.At? ==> r == Failure(NotSelected)
    ensures r == Failure(NotSelected) ==> !resolved.At?
    ensures r.Success? ==> r.value.index <= total - 1
    ensures r.Success? ==> r.value.index == (if resolved.index > total - 1 then total - 1 else resolved.index)
    ensures r.Success? ==> exists link :: Index(listing.links, r.value.index) == Some(link)
                                          && r.value.url == base + link
    ensures r.Success? ==> Index(listing.artists, r.value.index) == Some(r.value.artist)
                           && Index(listing.covers, r.value.index) == Some(r.value.cover)
    ensures resolved.At? ==>
              var index := if resolved.index > total - 1 then total - 1 else resolved.index;
              (r.Failure? && r.error.OutOfListing? <==>
                 Index(listing.links, index).None? || Index(listing.artists, index).None?
                 || Index(listing.covers, index).None?)
    ensures r.Failure? && r.error.OutOfListing? ==>
              var index := if resolved.index > total - 1 then total - 1 else resolved.index;
              var link := Index(listing.links, index);
              var artist := Index(listing.artists, index);
              && (r.error.url.Some? <==> link.Some?)
              && (r.error.url.Some? ==> r.error.url.value == base + link.value)
              && (r.error.artist.Some? <==> link.Some? && artist.Some?)
              && (r.error.artist.Some? ==> artist == Some(r.error.artist.value))
    ensures (resolved.At? && total > 0 && |listing.links| >= total && |listing.artists| >= total
             && |listing.covers| >= total) ==> r.Success?
  {
    match resolved
    case At(i) =>
      var index := if i > total - 1 then total - 1 else i;
      (match Index(listing.links, index)
       case None => Failure(OutOfListing(None, None))
       case Some(link) =>
         match Index(listing.artists, index)
         case None => Failure(OutOfListing(Some(base + link), None))
         case Some(artist) =>
           match Index(listing.covers, index)
           case None => Failure(OutOfListing(Some(base + link), Some(artist)))
           case Some(cover) => Success(Target(index, base + link, artist, cover)))
    case _ => Failure(NotSelected)
  }

  /** A selection past the end of a non-empty listing loads the last mixtape. */
  lemma SetMediaClampsToLast(listing: Listing, total: nat, i: nat, base: string)
    requires 0 < total <= i
    requires |listing.links| == |listing.artists| == |listing.covers| == total
    ensures SetMedia(listing, total, At(i), base)
         == Success(Target(total - 1, base + listing.links[total - 1],
                           listing.artists[total - 1], listing.covers[total - 1]))
  {
  }

  // ---------------------------------------------------------------------------
  // The `song` setter and `_write_audio`
  // ---------------------------------------------------------------------------

  datatype WriteError =
    | SongNotFound     // the lookup gave `None` or raised
    | OutOfAlbum       // an album list index raised `IndexError`
    | FetchFailed      // the network request raised

  /**
   * The `song` setter: look the name or number up and record the song found;
   * a lookup that finds nothing changes nothing, one that raises propagates.
   */
  function SetSong(s: Session, name: PyValue, indexOf: IndexOf): (r: Result<Session, WriteError>)
    ensures indexOf(name).Missing? ==> r == Success(s)
    ensures indexOf(name).Raises? ==> r == Failure(SongNotFound)
    ensures indexOf(name).At? && indexOf(name).index < |s.songs| ==>
              r == Success(s.(current := Some(indexOf(name).index)))
    ensures indexOf(name).At? && indexOf(name).index >= |s.songs| ==> r == Failure(OutOfAlbum)
    ensures r.Success? ==> r.value.songs == s.songs && r.value.cache == s.cache
  {
    match indexOf(name)
    case At(i) => if i < |s.songs| then Success(s.(current := Some(i))) else Failure(OutOfAlbum)
    case Missing => Success(s)
    case Raises => Failure(SongNotFound)
  }

  /** What `_write_audio` produced: the audio bytes, the session after it, and whether it fetched. */
  datatype Written = Written(content: Bytes, session: Session, index: nat, fetched: bool)

  /** `_write_audio`'s outcome; a failure carries the session as far as it had been updated. */
  datatype WriteOutcome =
    | WriteOk(written: Written)
    | WriteFailed(reason: WriteError, partial: Session)

  /**
   * `_write_audio(track)`: resolve the track, remember the index, select the
   * song, then take the response from the cache when the lookup (guarded by
   * `readable`) returns a truthy response, and otherwise fetch the song's mp3
   * link and cache the new response.
   */
  function WriteAudio(s: Session, track: PyValue, indexOf: IndexOf, fetch: Fetch,
                      readable: bool, outOfMemory: bool): (r: WriteOutcome)
    ensures !indexOf(track).At? ==> r == WriteFailed(SongNotFound, s)
    ensures (indexOf(track).At? && (indexOf(track).index >= |s.songs| || indexOf(track).index >= |s.mp3Urls|))
            ==> r == WriteFailed(OutOfAlbum, s.(songIndex := Some(indexOf(track).index)))
    ensures indexOf(track).At? && indexOf(track).index < |s.songs| && indexOf(track).index < |s.mp3Urls| ==>
              var sel := indexOf(track).index;
              var selected := SetSong(s.(songIndex := Some(sel)), PyInt(sel + 1), indexOf);
              var hit := Retrieve(s.cache, s.artist, s.songs[sel], readable);
              && (selected.Failure? ==> r == WriteFailed(selected.error, s.(songIndex := Some(sel))))
              && (selected.Success? && hit.Some? && hit.value.ok ==>
                    r.WriteOk? && !r.written.fetched && r.written.session == selected.value)
              && (selected.Success? && !(hit.Some? && hit.value.ok) ==>
                    (fetch(s.mp3Urls[sel]).Some? <==> r.WriteOk?)
                    && (r.WriteOk? ==> r.written.fetched)
                    && (fetch(s.mp3Urls[sel]).None? ==> r == WriteFailed(FetchFailed, selected.value)))
    ensures r.WriteFailed? && r.reason == FetchFailed ==> fetch(s.mp3Urls[indexOf(track).index]).None?
    ensures r.WriteOk? ==> var w := r.written;
      && indexOf(track) == At(w.index)
      && w.index < |s.songs| && w.index < |s.mp3Urls|
      && w.session.songIndex == Some(w.index)
      && w.session.songs == s.songs && w.session.mp3Urls == s.mp3Urls
    ensures r.WriteOk? ==>
      var w := r.written;
      var selected := SetSong(s.(songIndex := Some(w.index)), PyInt(w.index + 1), indexOf);
      && selected.Success?
      && w.session == selected.value.(cache := w.session.cache)
      && w.session.artist == s.artist
    ensures r.WriteOk? && !r.written.fetched ==>
      var w := r.written;
      var hit := Retrieve(s.cache, s.artist, s.songs[w.index], readable);
      hit.Some? && hit.value.ok && w.content == hit.value.content && w.session.cache == s.cache
    ensures r.WriteOk? && r.written.fetched ==>
      var w := r.written;
      var name := s.songs[w.index];
      var hit := Retrieve(s.cache, s.artist, name, readable);
      && (hit.None? || !hit.value.ok)
      && fetch(s.mp3Urls[w.index]).Some?
      && w.content == fetch(s.mp3Urls[w.index]).value.content
      && w.session.cache == CacheSong(s.cache, s.artist, name, fetch(s.mp3Urls[w.index]).value, outOfMemory)
  {
    match indexOf(track)
    case At(sel) =>
      var s1 := s.(songIndex := Some(sel));
      if sel >= |s.mp3Urls| || sel >= |s.songs| then
        WriteFailed(OutOfAlbum, s1)
      else
        var link := s.mp3Urls[sel];
        var name := s.songs[sel];
        (match SetSong(s1, PyInt(sel + 1), indexOf)
         case Failure(e) => WriteFailed(e, s1)
         case Success(s2) =>
           var hit := Retrieve(s2.cache, s.artist, name, readable);
           if hit.Some? && hit.value.ok then
             WriteOk(Written(hit.value.content, s2, sel, false))
           else
             match fetch(link)
             case None => WriteFailed(FetchFailed, s2)
             case Some(response) =>
               var s3 := s2.(cache := CacheSong(s2.cache, s.artist, name, response, outOfMemory));
               WriteOk(Written(response.content, s3, sel, true)))
    case _ => WriteFailed(SongNotFound, s)
  }

  /** As written, the cache is never read: every successful write fetched from the network. */
  lemma WriteAudioAsWrittenAlwaysFetches(s: Session, track: PyValue, indexOf: IndexOf,
                                         fetch: Fetch, outOfMemory: bool)
    ensures var r := WriteAudio(s, track, indexOf, fetch, GuardAsWritten, outOfMemory);
            r.WriteOk? ==> r.written.fetched
  {
  }

  /**
   * With the intended guard, writing the same track twice fetches once: the
   * second call is served from the cache with identical bytes. Without the
   * guard's fix the second call fetches again.
   */
  lemma WriteAudioSecondCallHitsCache(s: Session, track: PyValue, indexOf: IndexOf, fetch: Fetch)
    requires var r := WriteAudio(s, track, indexOf, fetch, true, false);
             r.WriteOk? && r.written.fetched && fetch(s.mp3Urls[r.written.index]).value.ok
    ensures var first := WriteAudio(s, track, indexOf, fetch, true, false).written;
            var second := WriteAudio(first.session, track, indexOf, fetch, true, false);
            second.WriteOk? && !second.written.fetched && second.written.content == first.content
    ensures var first := WriteAudio(s, track, indexOf, fetch, GuardAsWritten, false);
            var second := WriteAudio(first.written.session, track, indexOf, fetch, GuardAsWritten, false);
            first.WriteOk? && second.WriteOk? && second.written.fetched
  {
    var first := WriteAudio(s, track, indexOf, fetch, true, false).written;
    var sel := first.index;
    var name := s.songs[sel];
    assert Retrieve(first.session.cache, s.artist, name, true).Some?;
    var s1 := first.session.(songIndex := Some(sel));
    assert SetSong(s1, PyInt(sel + 1), indexOf).Success?;
  }

  /**
   * When caching the response runs out of memory, the cache is emptied, yet
   * the write still returns the bytes it fetched.
   */
  lemma WriteAudioMemoryErrorStillReturnsContent(s: Session, track: PyValue, indexOf: IndexOf,
                                                 fetch: Fetch, readable: bool)
    requires var r := WriteAudio(s, track, indexOf, fetch, readable, true);
             r.WriteOk? && r.written.fetched
    ensures var w := WriteAudio(s, track, indexOf, fetch, readable, true).written;
            w.session.cache == map[] && w.content == fetch(s.mp3Urls[w.index]).value.content
  {
  }

  // ---------------------------------------------------------------------------
  // play
  // ---------------------------------------------------------------------------

  /**
   * The track number `play` passes on: an integer above the song count becomes
   * the song count (other integers pass unchanged), and a name becomes its
   * 1-based position. `None` stands for a name lookup that raised.
   */
  function RequestedTrack(track: PyValue, songCount: nat, indexOf: IndexOf): (r: Option<int>)
    requires Truthy(track)
    ensures track.PyInt? ==> r.Some? && r.value <= songCount
    ensures track.PyInt? && track.i <= songCount ==> r == Some(track.i)
    ensures track.PyInt? && track.i > songCount ==> r == Some(songCount)
    ensures track.PyStr? ==> (r.Some? <==> indexOf(track).At?)
    ensures track.PyStr? && r.Some? ==> r.value == indexOf(track).index + 1 >= 1
  {
    match track
    case PyInt(t) => Some(if t > songCount then songCount else t)
    case PyStr(_) =>
      (match indexOf(track)
       case At(i) => Some(i + 1)
       case _ => None)
    case PyNone => None
  }

  /** The part of the audio `play` writes out, and the size it reports. */
  datatype Chunk = Chunk(bytes: Bytes, buffer: nat)

  /** For every size, a fifth plus a fifth of that fifth still fits in the whole. */
  lemma DemoWindowFits(n: nat)
    ensures n / 5 / 5 + n / 5 <= n
  {
    var b := n / 5;
    assert b * 5 <= n;
    assert b / 5 <= b;
  }

  /**
   * `play`'s chunking: the whole content, or in demo mode a window of a fifth
   * of the content starting a fifth of that length in. The slice is Python's
   * clamped one, yet the window always lies inside the content.
   */
  function DemoChunk(content: Bytes, demo: bool): (c: Chunk)
    ensures !demo ==> c.bytes == content && c.buffer == |content|
    ensures demo ==> c.buffer == |content| / 5 && |c.bytes| == c.buffer
    ensures demo ==> c.bytes == content[|content| / 5 / 5..|content| / 5 / 5 + |content| / 5]
    ensures |c.bytes| <= |content|
  {
    if !demo then
      Chunk(content, |content|)
    else
      var buffer := TruncDiv(|content|, 5);
      var start := TruncDiv(buffer, 5);
      DemoWindowFits(|content|);
      Chunk(Slice(content, start, buffer + start), buffer)
  }

  /** What one call of `play` did. */
  datatype PlayOutcome =
    | NoTrack                       // a falsy track: nothing happens
    | PlayerUnavailable             // no audio player: `MediaError(6)`
    | LookupRaised                  // a song name could not be resolved: the error propagates
    | NotFound(partial: Session)    // `_write_audio` failed: reported and swallowed
    | Started(session: Session, track: int, index: nat, song: string, chunk: Chunk)

  /**
   * `play(track, demo)`: ignore a falsy track, demand a player, turn the track
   * into a clamped track number, write its audio and cut the chunk to play.
   */
  function Play(s: Session, track: PyValue, demo: bool, playerPresent: bool, indexOf: IndexOf,
                fetch: Fetch, readable: bool, outOfMemory: bool): (r: PlayOutcome)
    ensures !Truthy(track) <==> r == NoTrack
    ensures Truthy(track) && !playerPresent ==> r == PlayerUnavailable
    ensures Truthy(track) && playerPresent ==>
              (r == LookupRaised <==> RequestedTrack(track, SongCount(s), indexOf).None?)
    ensures Truthy(track) && playerPresent && RequestedTrack(track, SongCount(s), indexOf).Some? ==>
              var t := RequestedTrack(track, SongCount(s), indexOf).value;
              var w := WriteAudio(s, PyInt(t), indexOf, fetch, readable, outOfMemory);
              && (w.WriteOk? ==> r.Started? && r.track == t && r.index == w.written.index)
              && (w.WriteFailed? ==> r == NotFound(w.partial))
    ensures r.LookupRaised? ==> track.PyStr? && !indexOf(track).At?
    ensures r.Started? ==> track.PyInt? ==> r.track <= SongCount(s) && r.track <= track.i
    ensures r.Started? ==> r.index < |s.songs| && r.song == s.songs[r.index]
                           && indexOf(PyInt(r.track)) == At(r.index)
    ensures r.Started? ==>
              var w := WriteAudio(s, PyInt(r.track), indexOf, fetch, readable, outOfMemory);
              w.WriteOk? && r.session == w.written.session && r.chunk == DemoChunk(w.written.content, demo)
  {
    if !Truthy(track) then NoTrack
    else if !playerPresent then PlayerUnavailable
    else
      match RequestedTrack(track, SongCount(s), indexOf)
      case None => LookupRaised
      case Some(t) =>
        match WriteAudio(s, PyInt(t), indexOf, fetch, readable, outOfMemory)
        case WriteFailed(_, partial) => NotFound(partial)
        case WriteOk(w) => Started(w.session, t, w.index, s.songs[w.index], DemoChunk(w.content, demo))
  }

  /** Selecting a song keeps the selection inside the album. */
  lemma SetSongKeepsSelection(s: Session, name: PyValue, indexOf: IndexOf)
    requires SelectionInAlbum(s)
    ensures var r := SetSong(s, name, indexOf); r.Success? ==> SelectionInAlbum(r.value)
  {
  }

  /**
   * Writing a track's audio keeps the selected song inside the album, both in
   * the session it leaves on success and in the one a failure leaves behind.
   */
  lemma WriteAudioKeepsSelection(s: Session, track: PyValue, indexOf: IndexOf, fetch: Fetch,
                                 readable: bool, outOfMemory: bool)
    requires SelectionInAlbum(s)
    ensures match WriteAudio(s, track, indexOf, fetch, readable, outOfMemory)
            case WriteOk(w) => SelectionInAlbum(w.session)
            case WriteFailed(_, partial) => SelectionInAlbum(partial)
  {
    if indexOf(track).At? {
      var sel := indexOf(track).index;
      var s1 := s.(songIndex := Some(sel));
      SetSongKeepsSelection(s1, PyInt(sel + 1), indexOf);
    }
  }

  /** Playing keeps the selected song inside the album. */
  lemma PlayKeepsSelection(s: Session, track: PyValue, demo: bool, indexOf: IndexOf,
                           fetch: Fetch, readable: bool, outOfMemory: bool)
    requires SelectionInAlbum(s)
    ensures match Play(s, track, demo, true, indexOf, fetch, readable, outOfMemory)
            case Started(after, _, _, _, _) => SelectionInAlbum(after)
            case NotFound(partial) => SelectionInAlbum(partial)
            case _ => true
  {
    if Truthy(track) {
      var t := RequestedTrack(track, SongCount(s), indexOf);
      if t.Some? {
        WriteAudioKeepsSelection(s, PyInt(t.value), indexOf, fetch, readable, outOfMemory);
      }
    }
  }

  /** `play` never asks for a track number beyond the album, whatever integer it is given. */
  lemma PlayNeverRequestsPastLastTrack(s: Session, n: int, demo: bool, indexOf: IndexOf,
                                       fetch: Fetch, readable: bool, outOfMemory: bool)
    requires n > SongCount(s)
    ensures var r := Play(s, PyInt(n), demo, true, indexOf, fetch, readable, outOfMemory);
            r.Started? ==> r.track == SongCount(s)
  {
  }
}

=== FILE: mixtapes.dfy ===
/**
 * The selection logic of `Mixtapes` (src/mixtapes.py): the lists scraped from
 * a listing page, choosing a mixtape by position or by name, and choosing the
 * listing category. The HTTP requests and the regular expressions that
 * extract the lists are outside the model: the extracted matches are inputs.
 */
module Mixtapes {
  import opened Wrappers
  import opened Py
  import opened Strings

  // ---------------------------------------------------------------------------
  // _searchTree and the page lists
  // ---------------------------------------------------------------------------

  /**
   * `_searchTree`: every regex match loses its `amp;` runs and, once the artist
   * list exists, the list is cut to the number of artists (`data[:n]`).
   */
  function SearchTree(matches: seq<string>, artistCount: Option<nat>): (r: seq<string>)
    ensures artistCount.None? ==> |r| == |matches|
    ensures artistCount.Some? ==>
              |r| == if |matches| <= artistCount.value then |matches| else artistCount.value
    ensures forall i :: 0 <= i < |r| ==> r[i] == RemoveAmp(matches[i])
  {
    var data := seq(|matches|, i requires 0 <= i < |matches| => RemoveAmp(matches[i]));
    match artistCount
    case None => data
    case Some(n) => Slice(data, 0, n)
  }

  /** The lists a listing page yields. */
  datatype Page = Page(artists: seq<string>, titles: seq<string>, links: seq<string>,
                       views: seq<string>)

  /**
   * `_setup`: the artists are parsed first, before `_artists` exists, so they are
   * kept whole; titles, links and view counts are then cut to the artist count.
   */
  function ParsePage(artistMatches: seq<string>, titleMatches: seq<string>,
                     linkMatches: seq<string>, viewMatches: seq<string>): (p: Page)
    ensures |p.artists| == |artistMatches|
    ensures forall i :: 0 <= i < |p.artists| ==> p.artists[i] == RemoveAmp(artistMatches[i])
    ensures |p.titles| == if |titleMatches| <= |p.artists| then |titleMatches| else |p.artists|
    ensures forall i :: 0 <= i < |p.titles| ==> p.titles[i] == RemoveAmp(titleMatches[i])
    ensures |p.links| == if |linkMatches| <= |p.artists| then |linkMatches| else |p.artists|
    ensures forall i :: 0 <= i < |p.links| ==> p.links[i] == RemoveAmp(linkMatches[i])
    ensures |p.views| == if |viewMatches| <= |p.artists| then |viewMatches| else |p.artists|
    ensures forall i :: 0 <= i < |p.views| ==> p.views[i] == RemoveAmp(viewMatches[i])
  {
    var artists := SearchTree(artistMatches, None);
    var n := Some(|artists|);
    Page(artists, SearchTree(titleMatches, n), SearchTree(linkMatches, n), SearchTree(viewMatches, n))
  }

  /** A scraped `&amp;` comes out as a plain `&`. */
  lemma SearchTreeUnescapes(title: string, artistCount: Option<nat>)
    requires !Contains(title, Amp)
    requires artistCount.None? || artistCount.value > 0
    ensures SearchTree([EscapeAmp(title)], artistCount) == [title]
  {
    RemoveAmpUnescapes(title);
  }

  // ---------------------------------------------------------------------------
  // _select
  // ---------------------------------------------------------------------------

  /** What `_select` returns: a link with its 0-based position, `None`, or an `IndexError`. */
  datatype Selection = Selected(link: string, index: nat) | NoMatch | LinkMissing

  /** `zip(artists, titles)`: pairs up to the shorter list. */
  function Zip(artists: seq<string>, titles: seq<string>): (z: seq<(string, string)>)
    ensures |z| == if |artists| <= |titles| then |artists| else |titles|
    ensures forall i :: 0 <= i < |z| ==> z[i] == (artists[i], titles[i])
  {
    var n := if |artists| <= |titles| then |artists| else |titles|;
    seq(n, i requires 0 <= i < n => (artists[i], titles[i]))
  }

  /** The text test of `_select`: the query occurs in the lower-cased artist or title. */
  predicate Matches(q: string, entry: (string, string)) {
    Contains(Lower(entry.0), q) || Contains(Lower(entry.1), q)
  }

  /** The lowest position at or after `from` whose entry matches the query. */
  function FirstMatch(q: string, entries: seq<(string, string)>, from: nat): (r: Option<nat>)
    requires from <= |entries|
    ensures r.None? <==> forall j :: from <= j < |entries| ==> !Matches(q, entries[j])
    ensures r.Some? ==> from <= r.value < |entries| && Matches(q, entries[r.value])
    ensures r.Some? ==> forall j :: from <= j < r.value ==> !Matches(q, entries[j])
    decreases |entries| - from
  {
    if from == |entries| then None
    else if Matches(q, entries[from]) then Some(from)
    else FirstMatch(q, entries, from + 1)
  }

  /** The query `_select` matches with: `str(select).lower().strip()`. */
  function Query(select: PyValue): string {
    Strip(Lower(Str(select)))
  }

  /** `_select`'s first step: a selection of 0 is replaced by 1. */
  function Adjust(select: PyValue): (r: PyValue)
    ensures select != PyInt(0) ==> r == select
  {
    if select == PyInt(0) then PyInt(1) else select
  }

  /** Whether `_select` takes the positional branch for this (already 0-adjusted) selection. */
  predicate Positional(select: PyValue, artistCount: nat) {
    select.PyInt? && 0 <= select.i < artistCount + 1
  }

  /**
   * `_select`: 0 counts as 1; an integer in `[1, len(artists)]` picks that
   * 1-based entry; anything else is turned into a lower-cased, stripped string
   * and the lowest entry whose artist or title contains it is picked.
   */
  function Select(artists: seq<string>, titles: seq<string>, links: seq<string>, select: PyValue)
    : (r: Selection)
    ensures r.Selected? ==> r.index < |links| && r.link == links[r.index]
    ensures select.PyInt? && 1 <= select.i <= |artists| ==>
              r == (if select.i - 1 < |links| then Selected(links[select.i - 1], select.i - 1)
                    else LinkMissing)
    ensures r.Selected? && !Positional(Adjust(select), |artists|) ==>
              FirstMatchAt(Query(Adjust(select)), Zip(artists, titles), r.index)
    ensures !Positional(Adjust(select), |artists|) ==>
              forall i :: FirstMatchAt(Query(Adjust(select)), Zip(artists, titles), i) ==>
                r == if i < |links| then Selected(links[i], i) else LinkMissing
    ensures r.NoMatch? <==> !Positional(Adjust(select), |artists|)
                            && forall j :: 0 <= j < |Zip(artists, titles)| ==>
                                 !Matches(Query(Adjust(select)), Zip(artists, titles)[j])
  {
    var sel := Adjust(select);
    if Positional(sel, |artists|) then
      match Index(links, sel.i - 1)
      case Some(link) => Selected(link, sel.i - 1)
      case None => LinkMissing
    else
      SelectText(artists, titles, links, Query(sel))
  }

  /** Entry `i` is the lowest entry the query matches. */
  predicate FirstMatchAt(q: string, entries: seq<(string, string)>, i: int) {
    && 0 <= i < |entries| && Matches(q, entries[i])
    && forall j :: 0 <= j < i ==> !Matches(q, entries[j])
  }

  /** `_select`'s text branch for an already normalised query. */
  function SelectText(artists: seq<string>, titles: seq<string>, links: seq<string>, q: string)
    : (r: Selection)
    ensures r.Selected? ==> r.index < |links| && r.link == links[r.index]
    ensures r.NoMatch? <==> forall j :: 0 <= j < |Zip(artists, titles)| ==> !Matches(q, Zip(artists, titles)[j])
    ensures forall i :: FirstMatchAt(q, Zip(artists, titles), i) ==>
              r == if i < |links| then Selected(links[i], i) else LinkMissing
  {
    match FirstMatch(q, Zip(artists, titles), 0)
    case None => NoMatch
    case Some(i) =>
      match Index(links, i)
      case Some(link) => Selected(link, i)
      case None => LinkMissing
  }

  /** Position 0 selects exactly what position 1 selects. */
  lemma SelectZeroIsOne(artists: seq<string>, titles: seq<string>, links: seq<string>)
    ensures Select(artists, titles, links, PyInt(0)) == Select(artists, titles, links, PyInt(1))
  {
  }

  /**
   * An integer outside `[0, len(artists)]` is not clamped: it is searched for as
   * text, exactly as its decimal string would be.
   */
  lemma SelectOutOfRangeIsText(artists: seq<string>, titles: seq<string>, links: seq<string>,
                               i: int)
    requires i < 0 || i > |artists|
    ensures Select(artists, titles, links, PyInt(i))
         == Select(artists, titles, links, PyStr(Str(PyInt(i))))
  {
  }

  /** An empty (or all white-space) query selects the first entry. */
  lemma SelectEmptyQueryPicksFirst(artists: seq<string>, titles: seq<string>, links: seq<string>,
                                   text: string)
    requires Query(PyStr(text)) == []
    requires |artists| > 0 && |titles| > 0 && |links| > 0
    ensures Select(artists, titles, links, PyStr(text)) == Selected(links[0], 0)
  {
    var entries := Zip(artists, titles);
    ContainsEmpty(Lower(entries[0].0));
    assert Matches([], entries[0]);
  }

  lemma LowerIdempotent(s: string)
    ensures Lower(Lower(s)) == Lower(s)
  {
  }

  /** A text selection goes straight to the text branch with its normalised query. */
  lemma SelectOfText(artists: seq<string>, titles: seq<string>, links: seq<string>, text: string)
    ensures Select(artists, titles, links, PyStr(text))
         == SelectText(artists, titles, links, Strip(Lower(text)))
  {
  }

  /** Name selection ignores the case of the query. */
  lemma SelectIgnoresCase(artists: seq<string>, titles: seq<string>, links: seq<string>,
                          text: string)
    ensures Select(artists, titles, links, PyStr(Lower(text)))
         == Select(artists, titles, links, PyStr(text))
  {
    LowerIdempotent(text);
    SelectOfText(artists, titles, links, text);
    SelectOfText(artists, titles, links, Lower(text));
  }

  // ---------------------------------------------------------------------------
  // _parseCategory and _Start
  // ---------------------------------------------------------------------------

  /** One entry of the category dictionary: its name and the listing URL. */
  datatype Category = Category(key: string, url: string)

  /** The category names, in dictionary order. */
  function Keys(categories: seq<Category>): (ks: seq<string>)
    ensures |ks| == |categories|
    ensures forall i :: 0 <= i < |ks| ==> ks[i] == categories[i].key
  {
    seq(|categories|, i requires 0 <= i < |categories| => categories[i].key)
  }

  /**
   * `min` over the names containing `q`. Ties keep the earlier name, as
   * Python's `min` does.
   */
  function MinContaining(keys: seq<string>, q: string): (r: Option<string>)
    ensures r.None? <==> forall i :: 0 <= i < |keys| ==> !Contains(keys[i], q)
    ensures r.Some? ==> r.value in keys && Contains(r.value, q)
    decreases |keys|
  {
    if |keys| == 0 then None
    else
      var rest := MinContaining(keys[1..], q);
      if !Contains(keys[0], q) then rest
      else if rest.None? || LexLe(keys[0], rest.value) then Some(keys[0])
      else Some(rest.value)
  }

  /** The name `MinContaining` picks is the least of all names containing `q`. */
  lemma {:induction false} MinContainingIsLeast(keys: seq<string>, q: string, i: nat)
    requires i < |keys| && Contains(keys[i], q)
    ensures LexLe(MinContaining(keys, q).value, keys[i])
    decreases |keys|
  {
    var rest := MinContaining(keys[1..], q);
    var r := MinContaining(keys, q).value;
    if i == 0 {
      if rest.Some? && !LexLe(keys[0], rest.value) {
        LexLeTotal(keys[0], rest.value);
      } else {
        LexLeTotal(keys[0], keys[0]);
      }
    } else {
      MinContainingIsLeast(keys[1..], q, i - 1);
      if Contains(keys[0], q) && rest.Some? && LexLe(keys[0], rest.value) {
        LexLeTransitive(keys[0], rest.value, keys[i]);
      }
    }
  }

  /** `_parseCategory(index)`: the least category name containing `str(index)`, or `None`. */
  function ParseCategory(categories: seq<Category>, index: PyValue): (r: Option<string>)
    ensures r.None? <==> forall i :: 0 <= i < |categories| ==> !Contains(categories[i].key, Str(index))
    ensures r.Some? ==> exists i :: 0 <= i < |categories| && categories[i].key == r.value
    ensures r.Some? ==> Contains(r.value, Str(index))
  {
    MinContaining(Keys(categories), Str(index))
  }

  /** No category name containing `str(index)` orders before the one `_parseCategory` picks. */
  lemma ParseCategoryPicksLeast(categories: seq<Category>, index: PyValue, i: nat)
    requires i < |categories| && Contains(categories[i].key, Str(index))
    ensures LexLe(ParseCategory(categories, index).value, categories[i].key)
  {
    MinContainingIsLeast(Keys(categories), Str(index), i);
  }

  /** `dict.get(key)`: the URL of the category with that name, if any. */
  function Get(categories: seq<Category>, key: string): (r: Option<string>)
    ensures r.None? <==> forall i :: 0 <= i < |categories| ==> categories[i].key != key
    ensures r.Some? ==> exists i :: 0 <= i < |categories| && categories[i] == Category(key, r.value)
    decreases |categories|
  {
    if |categories| == 0 then None
    else if categories[0].key == key then Some(categories[0].url)
    else Get(categories[1..], key)
  }

  /** The name `_Start` falls back on. */
  const DefaultCategory: string := "hot"

  /**
   * The category URL `_Start` requests: the URL of the parsed category, or the
   * default category's URL when there is none or it is empty.
   */
  function CategoryUrl(categories: seq<Category>, category: PyValue): (r: Option<string>)
    ensures (forall i :: 0 <= i < |categories| ==> !Contains(categories[i].key, Str(category)))
            ==> r == Get(categories, DefaultCategory)
    ensures r == Get(categories, DefaultCategory)
            || exists i :: 0 <= i < |categories| && Contains(categories[i].key, Str(category))
                           && categories[i].url != "" && r == Some(categories[i].url)
  {
    var parsed := ParseCategory(categories, category);
    var url := match parsed
      case Some(k) => Get(categories, k)
      case None => None;
    if url.None? || url.value == "" then Get(categories, DefaultCategory) else url
  }

  /** Category `i` is the least of the names containing `q`. */
  predicate LeastContaining(categories: seq<Category>, q: string, i: int) {
    && 0 <= i < |categories| && Contains(categories[i].key, q)
    && forall j :: 0 <= j < |categories| && Contains(categories[j].key, q) ==>
         LexLe(categories[i].key, categories[j].key)
  }

  /**
   * The least category name containing `str(category)` decides: its URL is
   * requested, or the default category's when that URL is empty.
   */
  lemma CategoryUrlOfLeast(categories: seq<Category>, category: PyValue, i: nat)
    requires LeastContaining(categories, Str(category), i)
    ensures Get(categories, categories[i].key).Some?
    ensures var u := Get(categories, categories[i].key).value;
            CategoryUrl(categories, category)
              == if u != "" then Some(u) else Get(categories, DefaultCategory)
  {
    var key := categories[i].key;
    var parsed := ParseCategory(categories, category);
    ParseCategoryPicksLeast(categories, category, i);
    var j :| 0 <= j < |categories| && categories[j].key == parsed.value;
    LexLeAntisymmetric(parsed.value, key);
  }

  /** The page `_Start` loads. */
  datatype Source = SearchResults(term: string) | CategoryPage(url: Option<string>)

  /**
   * `_Start(category, search)`: a truthy search term is searched for (after
   * `strip`); when the term is blank or the request fails the default category
   * is loaded instead. Without a search term the category is loaded.
   */
  function Start(categories: seq<Category>, category: PyValue, search: PyValue, searchOk: bool)
    : (r: Source)
    ensures r.SearchResults? <==> Truthy(search) && Strip(Str(search)) != [] && searchOk
    ensures r.SearchResults? ==> r.term == Strip(Str(search))
    ensures !Truthy(search) ==> r == CategoryPage(CategoryUrl(categories, category))
    ensures Truthy(search) && r.CategoryPage? ==>
              r == CategoryPage(CategoryUrl(categories, PyStr(DefaultCategory)))
  {
    if Truthy(search) then
      var term := Strip(Str(search));
      if term != [] && searchOk then SearchResults(term)
      else CategoryPage(CategoryUrl(categories, PyStr(DefaultCategory)))
    else
      CategoryPage(CategoryUrl(categories, category))
  }

  /**
   * Without a search term, a category that no name contains loads the
   * default category; with no category given (`None`) the usual names
   * contain no `"None"`, so this is what happens by default.
   */
  lemma StartUnknownCategoryLoadsDefault(categories: seq<Category>, category: PyValue,
                                         searchOk: bool)
    requires forall i :: 0 <= i < |categories| ==> !Contains(categories[i].key, Str(category))
    ensures Start(categories, category, PyNone, searchOk)
         == CategoryPage(Get(categories, DefaultCategory))
  {
  }
}

=== FILE: py.dfy ===
/**
 * The few pieces of Python semantics that the modelled code relies on:
 * dynamically typed arguments, truthiness, `str()`, clamped slicing and the
 * truncating `int()` of a float quotient.
 */
module Py {
  import opened Strings
  import opened Wrappers

  /** An argument whose Python type matters to the callee. */
  datatype PyValue = PyNone | PyInt(i: int) | PyStr(s: string)

  /** Python truthiness: `None`, `0` and `""` are false. */
  predicate Truthy(v: PyValue) {
    match v
    case PyNone => false
    case PyInt(i) => i != 0
    case PyStr(s) => s != ""
  }

  /** Python's `str(v)`. */
  function Str(v: PyValue): (r: string)
    ensures v.PyStr? ==> r == v.s
    ensures v.PyInt? && v.i >= 0 ==> IsDigits(r) && ParseDigits(r) == v.i
    ensures v.PyInt? && v.i < 0 ==> |r| > 0 && r[0] == '-'
  {
    match v
    case PyNone => "None"
    case PyInt(i) =>
      if i < 0 then
        "-" + Decimal(-i)
      else
        DecimalRoundTrip(i);
        Decimal(i)
    case PyStr(s) => s
  }

  /**
   * Python's slice `s[lo:hi]` for non-negative bounds: bounds past the end are
   * clamped to the length and an empty range yields the empty sequence.
   */
  function Slice<T>(s: seq<T>, lo: nat, hi: nat): (r: seq<T>)
    ensures lo <= hi <= |s| ==> r == s[lo..hi]
    ensures |r| <= |s|
  {
    var a := if lo <= |s| then lo else |s|;
    var b := if hi <= |s| then hi else |s|;
    if a <= b then s[a..b] else []
  }

  /** `int(a / b)` for a positive divisor: the float quotient truncated toward zero. */
  function TruncDiv(a: int, b: int): (q: int)
    requires b > 0
    ensures a >= 0 ==> q * b <= a < q * b + b
    ensures a < 0 ==> q * b - b < a <= q * b
  {
    if a >= 0 then a / b else -((-a) / b)
  }

  /**
   * Python's `s[i]` for an integer index: negative indices count from the end;
   * `None` stands for the `IndexError` an index outside `[-|s|, |s|)` raises.
   */
  function Index<T>(s: seq<T>, i: int): (r: Option<T>)
    ensures 0 <= i < |s| ==> r == Some(s[i])
    ensures -|s| <= i < 0 ==> r == Some(s[|s| + i])
    ensures r.None? <==> !(-|s| <= i < |s|)
  {
    if 0 <= i < |s| then Some(s[i])
    else if -|s| <= i < 0 then Some(s[|s| + i])
    else None
  }
}

=== FILE: strings.dfy ===
/**
 * Text operations the source performs with Python's built-in string methods:
 * substring tests, `lower()`, `strip()`, decimal rendering and parsing,
 * code-point ordering, and the `re.sub('amp;', '', s)` clean-up of scraped text.
 */
module Strings {

  /** Python's `q in s` on strings: `q` occurs as a contiguous run inside `s`. */
  predicate Contains(s: string, q: string)
    decreases |s|
  {
    q <= s || (|s| > 0 && Contains(s[1..], q))
  }

  /** Every string contains the empty string. */
  lemma ContainsEmpty(s: string)
    ensures Contains(s, [])
  {
  }

  /** `q` occurs in `s` starting at position `k`. */
  predicate OccursAt(s: string, q: string, k: int) {
    0 <= k <= |s| - |q| && s[k..k + |q|] == q
  }

  /** `Contains` agrees with the positional definition of a substring. */
  lemma {:induction false} ContainsAt(s: string, q: string)
    ensures Contains(s, q) <==> exists k :: OccursAt(s, q, k)
    decreases |s|
  {
    if q <= s {
      assert OccursAt(s, q, 0);
    } else if |s| > 0 {
      ContainsAt(s[1..], q);
      if exists k :: OccursAt(s, q, k) {
        var k :| OccursAt(s, q, k);
        assert k != 0;
        OccursAtTail(s, q, k - 1);
      }
      if Contains(s[1..], q) {
        var k :| OccursAt(s[1..], q, k);
        OccursAtTail(s, q, k);
      }
    }
  }

  /** ASCII upper-case letters are mapped to lower case; every other character is kept. */
  function LowerChar(c: char): char {
    if 'A' <= c <= 'Z' then (c as int + 32) as char else c
  }

  /** Python's `s.lower()`, restricted to the ASCII letters. */
  function Lower(s: string): (r: string)
    ensures |r| == |s|
    ensures forall i :: 0 <= i < |s| ==> r[i] == LowerChar(s[i])
  {
    seq(|s|, i requires 0 <= i < |s| => LowerChar(s[i]))
  }

  /** The characters Python's `str.isspace()` accepts, which are the ones `strip()` removes. */
  predicate IsSpace(c: char) {
    var n := c as int;
    (9 <= n <= 13) || (28 <= n <= 32) || n == 0x85 || n == 0xA0 || n == 0x1680
    || (0x2000 <= n <= 0x200A) || n == 0x2028 || n == 0x2029 || n == 0x202F
    || n == 0x205F || n == 0x3000
  }

  /** The number of white-space characters `s` starts with. */
  function LeadingSpaces(s: string, from: nat := 0): (n: nat)
    requires from <= |s|
    requires forall k :: 0 <= k < from ==> IsSpace(s[k])
    ensures from <= n <= |s|
    ensures forall k :: 0 <= k < n ==> IsSpace(s[k])
    ensures n == |s| || !IsSpace(s[n])
    decreases |s| - from
  {
    if from < |s| && IsSpace(s[from]) then LeadingSpaces(s, from + 1) else from
  }

  /** The end of `s[lo..upto]` once its trailing white space is dropped. */
  function TrailingEnd(s: string, lo: nat, upto: nat): (j: nat)
    requires lo <= upto <= |s|
    requires forall k :: upto <= k < |s| ==> IsSpace(s[k])
    ensures lo <= j <= upto
    ensures forall k :: j <= k < |s| ==> IsSpace(s[k])
    ensures j == lo || !IsSpace(s[j - 1])
    decreases upto
  {
    if lo < upto && IsSpace(s[upto - 1]) then TrailingEnd(s, lo, upto - 1) else upto
  }

  /**
   * Python's `s.strip()`: the longest infix of `s` that neither starts nor ends
   * with white space, everything cut off being white space.
   */
  function Strip(s: string): (r: string)
    ensures exists i, j :: (0 <= i <= j <= |s| && r == s[i..j]
      && (forall k :: 0 <= k < i ==> IsSpace(s[k]))
      && (forall k :: j <= k < |s| ==> IsSpace(s[k])))
    ensures r == [] || (!IsSpace(r[0]) && !IsSpace(r[|r| - 1]))
  {
    var i := LeadingSpaces(s);
    var j := TrailingEnd(s, i, |s|);
    assert i < j ==> s[i..j][0] == s[i] && s[i..j][j - i - 1] == s[j - 1];
    s[i..j]
  }

  /** The decimal digit character for `d`. */
  function DigitChar(d: nat): char
    requires d < 10
  {
    ('0' as int + d) as char
  }

  /** The value of a decimal digit character. */
  function DigitValue(c: char): nat
    requires '0' <= c <= '9'
  {
    c as int - '0' as int
  }

  /** Python's `str(n)` for a non-negative integer: its shortest decimal rendering. */
  function Decimal(n: nat): string
    decreases n
  {
    if n < 10 then [DigitChar(n)] else Decimal(n / 10) + [DigitChar(n % 10)]
  }

  /** Python's `s.isnumeric()` on ASCII text: non-empty and all decimal digits. */
  predicate IsDigits(s: string) {
    |s| > 0 && forall i :: 0 <= i < |s| ==> '0' <= s[i] <= '9'
  }

  /** Python's `int(s)` on a string of decimal digits. */
  function ParseDigits(s: string): nat
    requires forall i :: 0 <= i < |s| ==> '0' <= s[i] <= '9'
    decreases |s|
  {
    if |s| == 0 then 0 else ParseDigits(s[..|s| - 1]) * 10 + DigitValue(s[|s| - 1])
  }

  /** `int(str(n)) == n`: the decimal rendering is all digits and parses back. */
  lemma {:induction false} DecimalRoundTrip(n: nat)
    ensures IsDigits(Decimal(n)) && ParseDigits(Decimal(n)) == n
    decreases n
  {
    if n >= 10 {
      DecimalRoundTrip(n / 10);
      var p := Decimal(n / 10);
      assert Decimal(n) == p + [DigitChar(n % 10)];
      assert Decimal(n)[..|Decimal(n)| - 1] == p;
    }
  }

  /** Python's ordering of strings: lexicographic by code point, a prefix first. */
  predicate LexLe(a: string, b: string)
    decreases |a|
  {
    |a| == 0 || (|b| > 0 && (a[0] < b[0] || (a[0] == b[0] && LexLe(a[1..], b[1..]))))
  }

  lemma {:induction false} LexLeTotal(a: string, b: string)
    ensures LexLe(a, b) || LexLe(b, a)
    decreases |a|
  {
    if |a| > 0 && |b| > 0 && a[0] == b[0] {
      LexLeTotal(a[1..], b[1..]);
    }
  }

  lemma {:induction false} LexLeTransitive(a: string, b: string, c: string)
    requires LexLe(a, b) && LexLe(b, c)
    ensures LexLe(a, c)
    decreases |a|
  {
    if |a| > 0 && a[0] == b[0] && b[0] == c[0] {
      LexLeTransitive(a[1..], b[1..], c[1..]);
    }
  }

  lemma {:induction false} LexLeAntisymmetric(a: string, b: string)
    requires LexLe(a, b) && LexLe(b, a)
    ensures a == b
    decreases |a|
  {
    if |a| > 0 {
      LexLeAntisymmetric(a[1..], b[1..]);
      assert a == [a[0]] + a[1..] && b == [b[0]] + b[1..];
    }
  }

  /** The HTML entity tail that scraped titles carry after an ampersand. */
  const Amp: string := "amp;"

  /**
   * `re.sub('amp;', '', s)`: one left-to-right pass that deletes every
   * non-overlapping occurrence of `amp;`, resuming after each deletion.
   */
  function RemoveAmp(s: string): (r: string)
    ensures |r| <= |s|
    ensures !Contains(s, Amp) ==> r == s
    decreases |s|
  {
    if Amp <= s then RemoveAmp(s[|Amp|..])
    else if |s| == 0 then []
    else [s[0]] + RemoveAmp(s[1..])
  }

  /** Where `amp;` occurs, the pass deletes at least one run of it. */
  lemma {:induction false} RemoveAmpShortens(s: string)
    requires Contains(s, Amp)
    ensures |RemoveAmp(s)| <= |s| - |Amp|
    decreases |s|
  {
    if !(Amp <= s) {
      RemoveAmpShortens(s[1..]);
    }
  }

  /** An occurrence in `s[1..]` is an occurrence in `s`, one position later. */
  lemma OccursAtTail(s: string, q: string, j: int)
    requires |s| > 0
    ensures OccursAt(s[1..], q, j) <==> j >= 0 && OccursAt(s, q, j + 1)
  {
    if 0 <= j <= |s| - 1 - |q| {
      assert s[1..][j..j + |q|] == s[j + 1..j + 1 + |q|];
    }
  }

  /** How slices of `s[1..]` sit inside `s`. */
  lemma TailSlices(s: string, k: nat, n: nat)
    requires 0 < k && k + n <= |s|
    ensures s[1..][..k - 1] == s[1..k]
    ensures s[1..][k - 1 + n..] == s[k + n..]
    ensures s[..k] == [s[0]] + s[1..k]
  {
  }

  /** An occurrence at the front is deleted and the pass resumes after it. */
  lemma RemoveAmpFront(s: string)
    requires OccursAt(s, Amp, 0)
    ensures RemoveAmp(s) == RemoveAmp(s[|Amp|..])
  {
    assert Amp <= s;
  }

  /** Without an occurrence at the front, the first character is kept. */
  lemma RemoveAmpKeeps(s: string)
    requires |s| > 0 && !OccursAt(s, Amp, 0)
    ensures RemoveAmp(s) == [s[0]] + RemoveAmp(s[1..])
  {
    if Amp <= s {
      assert OccursAt(s, Amp, 0);
    }
  }

  /** The leftmost occurrence in `s` past the front is the leftmost one in `s[1..]`, one earlier. */
  lemma LeftmostInTail(s: string, q: string, k: nat)
    requires 0 < k && OccursAt(s, q, k)
    requires forall j :: 0 <= j < k ==> !OccursAt(s, q, j)
    ensures OccursAt(s[1..], q, k - 1)
    ensures forall j :: 0 <= j < k - 1 ==> !OccursAt(s[1..], q, j)
  {
    OccursAtTail(s, q, k - 1);
    forall j | 0 <= j < k - 1
      ensures !OccursAt(s[1..], q, j)
    {
      OccursAtTail(s, q, j);
    }
  }

  /**
   * The substitution pass: the leftmost `amp;` is deleted, the text before it
   * is kept as it is, and the pass resumes right after the deleted run.
   */
  lemma {:induction false} RemoveAmpLeftmost(s: string, k: nat)
    requires OccursAt(s, Amp, k)
    requires forall j :: 0 <= j < k ==> !OccursAt(s, Amp, j)
    ensures RemoveAmp(s) == s[..k] + RemoveAmp(s[k + |Amp|..])
    decreases k
  {
    if k == 0 {
      RemoveAmpFront(s);
    } else {
      var t := s[1..];
      RemoveAmpKeeps(s);
      LeftmostInTail(s, Amp, k);
      RemoveAmpLeftmost(t, k - 1);
      TailSlices(s, k, |Amp|);
    }
  }

  /** HTML escaping of ampersands: every `&` becomes `&amp;`. */
  function EscapeAmp(s: string): (r: string)
    ensures |r| >= |s|
    decreases |s|
  {
    if |s| == 0 then []
    else (if s[0] == '&' then "&amp;" else [s[0]]) + EscapeAmp(s[1..])
  }

  /** A prefix free of `&` survives escaping only if it was already there. */
  lemma {:induction false} EscapePrefix(t: string, x: string)
    requires forall i :: 0 <= i < |x| ==> x[i] != '&'
    requires x <= EscapeAmp(t)
    ensures x <= t
    decreases |x|
  {
    if |x| > 0 {
      assert t != [];
      var e := EscapeAmp(t[1..]);
      assert EscapeAmp(t) == (if t[0] == '&' then "&amp;" else [t[0]]) + e;
      assert x[0] == EscapeAmp(t)[0];
      assert EscapeAmp(t) == [t[0]] + e;
      assert x[1..] <= e;
      EscapePrefix(t[1..], x[1..]);
      assert x == [x[0]] + x[1..];
    }
  }

  /** An escaped ampersand loses its `amp;` and keeps the `&`. */
  lemma RemoveAmpEscaped(e: string)
    ensures RemoveAmp("&amp;" + e) == "&" + RemoveAmp(e)
  {
    var full := "&amp;" + e;
    assert !OccursAt(full, Amp, 0) by {
      assert full[0] != Amp[0];
      assert full[0..|Amp|][0] == full[0];
    }
    RemoveAmpKeeps(full);
    assert full[1..] == Amp + e;
    RemoveAmpFront(Amp + e);
    assert (Amp + e)[|Amp|..] == e;
  }

  /**
   * Removing `amp;` undoes HTML escaping of ampersands: `&amp;` becomes `&`
   * again, provided the original text did not itself contain `amp;`.
   */
  lemma {:induction false} RemoveAmpUnescapes(s: string)
    requires !Contains(s, Amp)
    ensures RemoveAmp(EscapeAmp(s)) == s
    decreases |s|
  {
    if |s| > 0 {
      var e := EscapeAmp(s[1..]);
      assert !Contains(s[1..], Amp) && !(Amp <= s);
      RemoveAmpUnescapes(s[1..]);
      if s[0] == '&' {
        assert EscapeAmp(s) == "&amp;" + e;
        RemoveAmpEscaped(e);
      } else {
        var full := EscapeAmp(s);
        assert full == [s[0]] + e;
        if Amp <= full {
          EscapePrefix(s, Amp);
        }
        assert full[1..] == e;
      }
      assert s == [s[0]] + s[1..];
    }
  }
}

=== FILE: vlc_player.dfy ===
/**
 * The VLC back end of the player (pydatpiff/backend/audio/vlcplayer.py): the
 * play/pause/stop flags, seeking, volume arithmetic, clock formatting and the
 * mapping from VLC's state name to the flags.
 *
 * The file holds an unresolved merge; this model takes the side on which the
 * player derives from `BasePlayer`, which supplies the flag dictionary and
 * `set_all_state` (`BasePlayer` itself is not part of this model). The VLC
 * media player is reduced to the volume and time it reports and the calls
 * made on it.
 */
module VlcPlayer {
  import opened Wrappers
  import opened Py
  import opened Strings

  /** The player's flag dictionary. */
  datatype Flags = Flags(playing: bool, pause: bool, stop: bool, load: bool)

  /** `set_all_state(value)` without overrides: every flag set to `value`. */
  function AllFlags(value: bool): Flags {
    Flags(value, value, value, value)
  }

  /** Flags that never claim to be playing and paused at once. */
  predicate Consistent(f: Flags) {
    !(f.playing && f.pause)
  }

  /** A call made on the VLC media player. */
  datatype EngineCall =
    | Start              // play()
    | TogglePause        // pause()
    | Halt               // stop()
    | SetTime(ms: int)   // set_time(ms)
    | SetVolume(level: int)
    | SetVolumeNone      // audio_set_volume(None): what VLC does with it is not modelled
    | SetMrl(file: string)

  /**
   * The player: its flags, the volume and time the media player reports, and
   * the track bookkeeping of `setTrack` / `play`.
   */
  datatype Player = Player(flags: Flags, volume: int, time: int, trackSet: bool,
                           song: Option<string>, filename: Option<string>)

  /** A player after an operation, with the calls the operation made on VLC. */
  datatype Step = Step(player: Player, calls: seq<EngineCall>)

  // ---------------------------------------------------------------------------
  // States
  // ---------------------------------------------------------------------------

  /**
   * `_stateof`, from the name of VLC's state (`NothingSpecial`, `Playing`,
   * `Paused`, ...): nothing special clears every flag; a name mentioning
   * "pause" in any case means paused; any other name means playing.
   */
  function StateOf(f: Flags, token: string): (r: Flags)
    ensures Consistent(r)
    ensures token == "NothingSpecial" ==> r == AllFlags(false)
    ensures token != "NothingSpecial" ==>
              r.stop == f.stop && r.load == f.load && r.playing != r.pause
              && (r.pause <==> Contains(Lower(token), "pause"))
  {
    if token == "NothingSpecial" then AllFlags(false)
    else if Contains(Lower(token), "pause") then f.(pause := true, playing := false)
    else f.(playing := true, pause := false)
  }

  /** `pause`: the pause flag toggles and `playing` takes the old pause flag. */
  function Pause(p: Player): (s: Step)
    ensures s.player.flags.playing != s.player.flags.pause
    ensures s.player.flags.pause != p.flags.pause
    ensures s.player == p.(flags := s.player.flags)
    ensures s.player.flags.stop == p.flags.stop && s.player.flags.load == p.flags.load
    ensures s.calls == [TogglePause]
  {
    var old_pause := p.flags.pause;
    Step(p.(flags := p.flags.(playing := old_pause, pause := !old_pause)), [TogglePause])
  }

  /**
   * Two pauses in a row restore the pause flag and leave `playing` as its
   * opposite, toggling VLC twice; from a player that was either playing or
   * paused (but not both or neither) they restore the player exactly.
   */
  lemma PauseTwiceRestores(p: Player)
    ensures var f := Pause(Pause(p).player).player.flags;
            f.pause == p.flags.pause && f.playing == !p.flags.pause
    ensures p.flags.playing != p.flags.pause ==> Pause(Pause(p).player).player == p
    ensures Pause(p).calls + Pause(Pause(p).player).calls == [TogglePause, TogglePause]
  {
    var once := Pause(p).player;
    var twice := Pause(once).player;
    assert twice.flags.pause == !once.flags.pause == p.flags.pause;
    if p.flags.playing != p.flags.pause {
      assert twice.flags == p.flags;
    }
  }

  /** From an idle player (neither flag set) two pauses leave it playing, not idle. */
  lemma PauseTwiceFromIdlePlays(p: Player)
    requires !p.flags.playing && !p.flags.pause
    ensures Pause(Pause(p).player).player.flags.playing
  {
  }

  /**
   * `play`: a paused player is resumed through `pause`, any other one is
   * started; either way the flags end as playing and loaded, nothing else.
   */
  function Play(p: Player): (s: Step)
    ensures s.player.flags == Flags(playing := true, pause := false, stop := false, load := true)
    ensures s.calls == if p.flags.pause then [TogglePause] else [Start]
    ensures !p.flags.pause ==> s.player.trackSet
    ensures s.player == (if p.flags.pause then p else p.(trackSet := true)).(flags := s.player.flags)
    ensures s.player.volume == p.volume && s.player.time == p.time
    ensures s.player.song == p.song && s.player.filename == p.filename
  {
    var started := if p.flags.pause then Pause(p) else Step(p.(trackSet := true), [Start]);
    var flags := AllFlags(false).(playing := true, load := true);
    Step(started.player.(flags := flags), started.calls)
  }

  /** `stop`: VLC is stopped and only the stop flag remains set. */
  function Stop(p: Player): (s: Step)
    ensures s.player.flags == Flags(playing := false, pause := false, stop := true, load := false)
    ensures s.player == p.(flags := s.player.flags)
    ensures s.calls == [Halt]
  {
    Step(p.(flags := AllFlags(false).(stop := true)), [Halt])
  }

  /** Play followed by stop leaves the player stopped, neither playing nor paused. */
  lemma PlayThenStop(p: Player)
    ensures var f := Stop(Play(p).player).player.flags;
            f.stop && !f.playing && !f.pause
  {
  }

  /** Every transition keeps the flags consistent, whatever they were before. */
  lemma TransitionsKeepConsistent(p: Player, token: string)
    ensures Consistent(Pause(p).player.flags)
    ensures Consistent(Play(p).player.flags)
    ensures Consistent(Stop(p).player.flags)
    ensures Consistent(StateOf(p.flags, token))
  {
  }

  /** `setTrack(name, filename)`; without a file name the source calls an undefined `Print`. */
  datatype TrackError = UndefinedPrint

  function SetTrack(p: Player, name: string, filename: Option<string>): (r: Result<Step, TrackError>)
    ensures (filename.Some? && filename.value != "") <==> r.Success?
    ensures r.Success? ==> r.value.player.trackSet && r.value.player.filename == filename
                           && r.value.player.song == Some(name) && r.value.calls == [SetMrl(filename.value)]
    ensures r.Success? ==> r.value.player.flags == p.flags
    ensures r.Success? ==> r.value.player == p.(filename := filename, song := Some(name), trackSet := true)
  {
    if filename.Some? && filename.value != "" then
      Success(Step(p.(filename := filename, song := Some(name), trackSet := true), [SetMrl(filename.value)]))
    else
      Failure(UndefinedPrint)
  }

  /** `setTrack` as evidently intended: without a file name, report and change nothing. */
  function SetTrackIntended(p: Player, name: string, filename: Option<string>): (s: Step)
    ensures (filename.Some? && filename.value != "") ==> Success(s) == SetTrack(p, name, filename)
    ensures !(filename.Some? && filename.value != "") ==> s == Step(p, [])
  {
    match SetTrack(p, name, filename)
    case Success(step) => step
    case Failure(_) => Step(p, [])
  }

  /** As written, asking for a track without a file raises instead of reporting. */
  lemma SetTrackWithoutFileRaises(p: Player, name: string)
    ensures SetTrack(p, name, None) == Failure(UndefinedPrint)
    ensures SetTrack(p, name, Some("")) == Failure(UndefinedPrint)
    ensures SetTrackIntended(p, name, None) == Step(p, [])
  {
  }

  /**
   * A track given a file name and then played is playing that file: the
   * player is started on it and nothing else was asked of VLC.
   */
  lemma SetTrackThenPlay(p: Player, name: string, file: string)
    requires file != "" && !p.flags.pause
    ensures SetTrack(p, name, Some(file)).Success?
    ensures var loaded := SetTrack(p, name, Some(file)).value;
            var played := Play(loaded.player);
            && played.player.flags.playing && played.player.flags.load && !played.player.flags.stop
            && played.player.filename == Some(file) && played.player.song == Some(name)
            && loaded.calls + played.calls == [SetMrl(file), Start]
  {
  }

  // ---------------------------------------------------------------------------
  // Seeking
  // ---------------------------------------------------------------------------

  /**
   * `_seeker(pos, rew)`: nothing when stopped; otherwise the time moves back
   * (`rew`) or forward by `pos` seconds, without clamping.
   */
  function Seek(p: Player, pos: int, rew: bool): (s: Step)
    ensures p.flags.stop ==> s == Step(p, [])
    ensures !p.flags.stop ==> s.player == p.(time := s.player.time) && s.calls == [SetTime(s.player.time)]
    ensures !p.flags.stop ==> s.player.time - p.time == if rew then -pos * 1000 else pos * 1000
  {
    if p.flags.stop then Step(p, [])
    else
      var target := if rew then p.time - pos * 1000 else p.time + pos * 1000;
      Step(p.(time := target), [SetTime(target)])
  }

  /** `rewind(pos)`: back by `pos` seconds unless stopped, through one `set_time`. */
  function Rewind(p: Player, pos: int): (s: Step)
    ensures !p.flags.stop ==>
              s == Step(p.(time := p.time - pos * 1000), [SetTime(p.time - pos * 1000)])
    ensures p.flags.stop ==> s == Step(p, [])
  {
    Seek(p, pos, true)
  }

  /** `ffwd(pos)`: forward by `pos` seconds unless stopped, through one `set_time`. */
  function FastForward(p: Player, pos: int): (s: Step)
    ensures !p.flags.stop ==>
              s == Step(p.(time := p.time + pos * 1000), [SetTime(p.time + pos * 1000)])
    ensures p.flags.stop ==> s == Step(p, [])
  {
    Seek(p, pos, false)
  }

  /** Fast-forwarding and then rewinding by the same amount returns to the same position. */
  lemma RewindUndoesFastForward(p: Player, pos: int)
    ensures Rewind(FastForward(p, pos).player, pos).player == p
  {
  }

  // ---------------------------------------------------------------------------
  // Volume
  // ---------------------------------------------------------------------------

  datatype Way = Down | Up | Exact

  /**
   * The volume `_set_volume` computes from VLC's current volume and a checked
   * amount: the sum capped at 100, the difference floored at 0, or the amount
   * itself capped at 100.
   */
  function Adjust(current: int, amount: nat, way: Way): (level: int)
    ensures way == Up ==>
              level <= 100 && level <= current + amount && (level == 100 || level == current + amount)
    ensures way == Down ==>
              level >= 0 && level >= current - amount && (level == 0 || level == current - amount)
    ensures way == Exact ==>
              0 <= level <= 100 && level <= amount && (level == 100 || level == amount)
  {
    match way
    case Down => if current - amount < 0 then 0 else current - amount
    case Up => if current + amount > 100 then 100 else current + amount
    case Exact =>
      var v := if amount < 0 then 0 else amount;
      if v > 100 then 100 else v
  }

  /** What `_set_volume` does with its argument. */
  datatype VolumeOutcome =
    | Ignored            // not a string of digits once passed through `str`
    | Applied(level: int)
    | PassedThrough      // neither an int nor a str: handed to VLC unchecked

  /**
   * `_set_volume(vol, way)`: an int or str argument counts only when `str(vol)`
   * is all digits (so negative numbers and words are ignored); the level is
   * then computed from the current volume.
   */
  function NewVolume(current: int, vol: PyValue, way: Way): (r: VolumeOutcome)
    ensures vol.PyNone? <==> r.PassedThrough?
    ensures vol.PyInt? && vol.i < 0 ==> r.Ignored?
    ensures vol.PyInt? && vol.i >= 0 ==> r == Applied(Adjust(current, vol.i, way))
    ensures vol.PyStr? ==> (r.Ignored? <==> !IsDigits(vol.s))
    ensures vol.PyStr? && IsDigits(vol.s) ==> r == Applied(Adjust(current, ParseDigits(vol.s), way))
  {
    match vol
    case PyNone => PassedThrough
    case _ =>
      var text := Str(vol);
      if !IsDigits(text) then Ignored else Applied(Adjust(current, ParseDigits(text), way))
  }

  /** For any numeric request, a volume that starts in `[0, 100]` stays there. */
  lemma VolumeStaysInRange(current: int, vol: PyValue, way: Way)
    requires 0 <= current <= 100
    ensures NewVolume(current, vol, way).Applied? ==> 0 <= NewVolume(current, vol, way).level <= 100
  {
  }

  /** Turning up never lowers the volume and turning down never raises it. */
  lemma VolumeMonotone(current: int, amount: nat)
    requires 0 <= current <= 100
    ensures current <= Adjust(current, amount, Up) <= 100
    ensures 0 <= Adjust(current, amount, Down) <= current
  {
  }

  /** A volume given as a digit string acts as the number it spells. */
  lemma VolumeTextAsNumber(current: int, n: nat, way: Way)
    ensures NewVolume(current, PyStr(Decimal(n)), way) == NewVolume(current, PyInt(n), way)
  {
  }

  /** Applies a volume outcome to the player. */
  function SetVolumeStep(p: Player, vol: PyValue, way: Way): (s: Step)
    ensures NewVolume(p.volume, vol, way).Ignored? ==> s == Step(p, [])
    ensures NewVolume(p.volume, vol, way).Applied? ==>
              var level := NewVolume(p.volume, vol, way).level;
              s == Step(p.(volume := level), [SetVolume(level)])
    ensures s.player.flags == p.flags
  {
    match NewVolume(p.volume, vol, way)
    case Ignored => Step(p, [])
    case Applied(level) => Step(p.(volume := level), [SetVolume(level)])
    case PassedThrough => Step(p, [SetVolumeNone])
  }

  /**
   * `volumeUp(vol)`: an accepted amount sets VLC's volume to the sum capped at
   * 100, which from an in-range volume never lowers it; a rejected one changes
   * nothing.
   */
  function VolumeUp(p: Player, vol: PyValue): (s: Step)
    ensures NewVolume(p.volume, vol, Up).Ignored? ==> s == Step(p, [])
    ensures vol.PyInt? && vol.i >= 0 ==>
              var level := if p.volume + vol.i > 100 then 100 else p.volume + vol.i;
              s == Step(p.(volume := level), [SetVolume(level)])
    ensures NewVolume(p.volume, vol, Up).Applied? ==>
              var level := NewVolume(p.volume, vol, Up).level;
              s == Step(p.(volume := level), [SetVolume(level)])
    ensures vol.PyNone? ==> s == Step(p, [SetVolumeNone])
    ensures 0 <= p.volume <= 100 ==> p.volume <= s.player.volume <= 100
  {
    SetVolumeStep(p, vol, Up)
  }

  /**
   * `volumeDown(vol)`: an accepted amount sets VLC's volume to the difference
   * floored at 0, which from an in-range volume never raises it; a rejected
   * one changes nothing.
   */
  function VolumeDown(p: Player, vol: PyValue): (s: Step)
    ensures NewVolume(p.volume, vol, Down).Ignored? ==> s == Step(p, [])
    ensures vol.PyInt? && vol.i >= 0 ==>
              var level := if p.volume - vol.i < 0 then 0 else p.volume - vol.i;
              s == Step(p.(volume := level), [SetVolume(level)])
    ensures NewVolume(p.volume, vol, Down).Applied? ==>
              var level := NewVolume(p.volume, vol, Down).level;
              s == Step(p.(volume := level), [SetVolume(level)])
    ensures vol.PyNone? ==> s == Step(p, [SetVolumeNone])
    ensures 0 <= p.volume <= 100 ==> 0 <= s.player.volume <= p.volume
  {
    SetVolumeStep(p, vol, Down)
  }

  /**
   * `volume(vol)`: `None` returns at once; an accepted amount becomes the
   * volume, capped at 100; a rejected one changes nothing.
   */
  function Volume(p: Player, vol: PyValue): (s: Step)
    ensures vol.PyNone? ==> s == Step(p, [])
    ensures NewVolume(p.volume, vol, Exact).Ignored? ==> s == Step(p, [])
    ensures NewVolume(p.volume, vol, Exact).Applied? ==>
              var level := NewVolume(p.volume, vol, Exact).level;
              s == Step(p.(volume := level), [SetVolume(level)])
    ensures vol.PyInt? && 0 <= vol.i <= 100 ==> s == Step(p.(volume := vol.i), [SetVolume(vol.i)])
    ensures vol.PyInt? && vol.i > 100 ==> s == Step(p.(volume := 100), [SetVolume(100)])
    ensures 0 <= p.volume <= 100 && !vol.PyNone? ==> 0 <= s.player.volume <= 100
  {
    if vol.PyNone? then Step(p, []) else SetVolumeStep(p, vol, Exact)
  }

  /** At volume 95, turning up by 10 stops at 100. */
  lemma VolumeUpSaturates(p: Player)
    requires p.volume == 95
    ensures VolumeUp(p, PyInt(10)).player.volume == 100
  {
  }

  // ---------------------------------------------------------------------------
  // Clock
  // ---------------------------------------------------------------------------

  /**
   * `_format_time(pos)`: whole minutes by truncating `pos / 60000`, and the
   * seconds left over after Python's (floored) remainder by 60000.
   */
  function FormatTime(pos: int): (r: (int, int))
    ensures 0 <= r.1 < 60
    ensures pos >= 0 ==> r.0 >= 0 && r.0 * 60000 + r.1 * 1000 <= pos < r.0 * 60000 + r.1 * 1000 + 1000
  {
    var mins := TruncDiv(pos, 60000);
    var secs := (pos % 60000) / 1000;
    (mins, secs)
  }

  /**
   * A negative time mixes the two roundings: VLC's "no time" value of -1 ms
   * reads as 0 minutes and 59 seconds.
   */
  lemma FormatTimeOfMinusOne()
    ensures FormatTime(-1) == (0, 59)
  {
  }
}

=== FILE: wrappers.dfy ===
/** Failure-carrying values shared by every module of the model. */
module Wrappers {

  /** A value that may be absent: Python's `None` or a present value. */
  datatype Option<+T> = None | Some(value: T)

  /** Either a successful value or the error the source would raise. */
  datatype Result<+T, +E> = Success(value: T) | Failure(error: E)

  /** A raw audio payload: the bytes of an HTTP response body. */
  newtype byte = x: int | 0 <= x < 256

  type Bytes = seq<byte>
}
